=== FILE: README.md ===
# servum, modelled in Dafny

servum is a small static file server. This project models the part of it that
decides what to answer. That means reading the request line, turning the
request path into a file name under the served directory, and the traversal
guard. It also covers reading a file or listing a directory from an abstract
file system, and mapping I/O errors to HTTP statuses. Building the HTML pages
and serialising the response header are modelled too, as is reading the
command line into a configuration.

Everything is a pure function over immutable values:

- text is `string`; bytes are `seq<byte>`, with an explicit UTF-8 encoder and
  decoder (`Utf8`);
- a path is a root flag plus a sequence of components, as `std::path`
  presents it (`Paths`);
- the file system is a finite map from paths to files, directories, or nodes
  whose every access fails (`FileSystem`);
- `Path::canonicalize` and `env::current_dir` are parameters of the
  command-line model (`CliConfig`);
- the handler returns its response together with the list of paths it asked
  the file system about, so confinement to the served directory is a
  theorem about that list (`Handler.Confinement`).

Modules follow the source files: `Paths` (files/path.rs), `Mime`
(files/mime.rs), `DirEntries` (files/file.rs), `Html` (http/html.rs),
`HttpStatus` (http/status.rs), `HttpResponse` (http/response.rs),
`HttpRequest` and `RequestErrors` (http/request.rs, http/request_err.rs),
`Handler` and `FileSystem` (http/handler.rs), and `CliConfig` and `CliErrors`
(cli/config.rs, cli/err.rs). `Text`, `Utf8`, `IoErrors` and `Results` model
the parts of Rust's standard library the source relies on.

Decisions where the documentation and the code part ways:

- The code is followed. The command line accepts `--threads 0`, although
  the usage text asks for a value above zero (`CliConfig.ZeroThreadsAccepted`).
- `HTTPRequest::new` tokenises the whole buffer, not only its first line, and
  accepts any number of words from three up (`HttpRequest.LinesNotDistinguished`).
- When percent-decoding produces bytes that are not UTF-8, `decode_percents`
  unwraps and the worker thread panics. The model returns `None` there, and
  the handler's outcome is `Panic`.

## Model

| member | source | states |
|---|---|---|
| Paths.HexValue | src/files/path.rs:16-17 | exactly the bytes `0`-`9`, `A`-`F` and `a`-`f` are digits, each with a value below 16 |
| Paths.LowerCaseHexDigit | src/files/path.rs:16-17 | a lower-case letter digit reads as the same value as its upper-case form, so `%2e` decodes like `%2E` |
| Paths.HexValueIsDigit | src/files/path.rs:16-17 | every accepted byte is the upper- or lower-case digit of the value it reads as |
| Paths.FromHex | src/files/path.rs:13-22 | a byte is produced only when the next two bytes are both hexadecimal digits; otherwise nothing is consumed |
| Paths.DecodeBytes | src/files/path.rs:43-51 | the decoded bytes are never longer than the input, and bytes without `%` pass unchanged |
| Paths.EscapeDecoded | src/files/path.rs:46-50 | `%XY` with two hex digits becomes the single byte 16·X+Y, and decoding goes on after it |
| Paths.LonePercentKept | src/files/path.rs:48 | a `%` not followed by two hex digits (including one at the end) is kept, and scanning resumes at the next byte |
| Paths.DecodeBytesOfPercentEncode | src/files/path.rs:43-51 | decoding undoes RFC 3986 section 2.1 percent-encoding of any byte string |
| Paths.DecodePercents | src/files/path.rs:38-54 | text without `%` is kept as it is; a decoded path is never longer in UTF-8 bytes than the request path |
| Paths.DecodePercentsShortcut | src/files/path.rs:38-54 | the early return for text without `%` agrees with the byte loop |
| Paths.ParsePath | src/files/path.rs:81-82 | `Path::components` yields well-formed components; the path is absolute iff the text starts with `/` |
| Paths.ParsePathText | src/files/path.rs:81-82 | parsing the text of a normalized path gives the path back |
| Paths.JoinPath | src/files/path.rs:126 | `join` keeps paths well formed, and an absolute path replaces the base |
| Paths.Walk | src/files/path.rs:91-105 | the kept names are no more than the components, and each is a name component of the input |
| Paths.Normalize | src/files/path.rs:81-107 | the root is kept, the path does not grow, and the result holds names only (no `.` or `..`) |
| Paths.WalkExtends | src/files/path.rs:91-105 | without `..`, the names already kept are extended and never lost |
| Paths.NormalizeIdempotent | src/files/path.rs:91-105 | normalizing twice is normalizing once |
| Paths.ParentOfRootIsRoot | src/files/path.rs:98-100 | `..` at the root stays at the root |
| Paths.WalkUps | src/files/path.rs:98-100 | k successive `..` after some names remove the last k of them, or all when there are fewer |
| Paths.ProcessPath | src/files/path.rs:124-127 | fails exactly when decoding fails; otherwise the result is normalized |
| Paths.DecodedResolvesAlike | src/files/path.rs:124-127 | the percent-decoded text is what is joined and normalized: a request path resolves exactly as its decoding does |
| Paths.Ancestors | src/http/handler.rs:104-107 | `ancestors()` starts with the path itself |
| Paths.AncestorsArePrefixes | src/http/handler.rs:104-107 | a path is among the ancestors iff it is a component-wise prefix |
| Paths.IsSubIffPrefix | src/http/handler.rs:104-107 | the guard's test is the component-prefix relation |
| Paths.GuardAdmitsDescent | src/http/handler.rs:102-114 | a relative request without `..` always passes the guard under a normalized base |
| Paths.GuardedIsConfined | src/http/handler.rs:102-114 | what passes the guard is the base followed by plain names only |
| Paths.NormalizationAloneEscapes | src/files/path.rs:124-127 | enough `..` components lead any non-empty absolute base out to `/x`, which is not under the base; this is why the guard is needed |
| Paths.LastIndexOf | src/files/mime.rs:25 | the last position of a character, or none when it is absent |
| Paths.ExtensionOf | src/files/mime.rs:25 | `Path::extension`: text after the last dot that holds no dot and leaves a non-empty stem before it |
| Paths.ExtensionOfStemAndExt | src/files/mime.rs:25 | `stem.ext` has extension `ext` for any non-empty stem |
| Paths.Extension | src/files/mime.rs:25 | the extension is that of the last component's name |
| Mime.GuessMimeType | src/files/mime.rs:24-108 | a type is given only for an extension the table lists |
| Mime.HtmlExtensions | src/files/mime.rs:47-48 | exactly `htm` and `html` are `text/html` |
| Mime.JavascriptExtensions | src/files/mime.rs:54-59 | exactly `js` and `mjs` are `text/javascript` |
| Mime.ImageExtensions | src/files/mime.rs:52-85 | exactly `jpg`/`jpeg` are `image/jpeg`, and exactly `tif`/`tiff` are `image/tiff` |
| Mime.UpperCaseUnknown | src/files/mime.rs:26-106 | matching is case-sensitive: `HTML` and `JPG` have no type |
| Mime.TypeOfNamedFile | src/files/mime.rs:24-26 | only the last extension of the last component matters |
| Paths.HiddenNameHasNoExtension | src/files/mime.rs:25 | a name whose only dot is its first character has no extension |
| Mime.HiddenFileUntyped | src/files/mime.rs:25-26 | a dot file such as `.html` has no extension and no type |
| Mime.RootUntyped | src/files/mime.rs:25-26 | a path without a file name has no type |
| DirEntries.Render | src/files/file.rs:11-29 | the link starts with `<a href="./` and ends with `</a>`, and is 17 characters longer than twice the shown name |
| DirEntries.LinkTextOfRender | src/files/file.rs:22-27 | after the target comes `">`, and the anchor text is the shown name again |
| DirEntries.LinkTargetOfRender | src/files/file.rs:22-27 | the link target read back from the anchor is the shown name |
| DirEntries.RenderInjective | src/files/file.rs:13-27 | different names, or a directory and a file, render differently |
| DirEntries.EndsWithSlashIffDir | src/files/file.rs:13-20 | the shown name ends with `/` iff the entry is a directory; an unknown type counts as a file |
| DirEntries.IndexFileLink | src/http/handler.rs:158-160 | the regular file `index.html` renders as `<a href="./index.html">index.html</a>` |
| Html.HtmlDoc | src/http/html.rs:21-33 | the page starts with the doctype, ends with `</html>` and a newline, and is a fixed preamble + content + a fixed tail |
| Html.ContentOfHtmlDoc | src/http/html.rs:27-32 | the content can be read back from the page, unescaped |
| Html.HtmlDocInjective | src/http/html.rs:27-32 | different contents give different pages |
| Html.HtmlDocShowsTitle | src/http/html.rs:28 | the page contains `<title>` + title + `</title>` |
| Html.HtmlDocShowsLead | src/http/html.rs:28 | the page contains `<h1>` + lead + `</h1>` |
| Html.HtmlDocShowsContent | src/http/html.rs:28 | the page contains `<p>` + content + `</p>` |
| IoErrors.Payload | src/http/status.rs:132 | an error has a payload message exactly when it was built with a custom message |
| HttpStatus.Reason | src/http/status.rs:109-115 | every code other than 200, 403, 404 and 501 reads "Internal Server Error" |
| HttpStatus.FromIoError | src/http/status.rs:130-145 | 404 iff the kind is NotFound, 403 iff PermissionDenied, otherwise 500; the comment is the custom message if any |
| HttpStatus.FromIoResult | src/http/status.rs:121-128 | success is 200 "OK" without comment; an error maps as above |
| HttpStatus.FromIoErrorAgreesWithCode | src/http/status.rs:107-145 | the error mapping uses the same reasons as the code mapping |
| HttpStatus.StatusLine | src/http/status.rs:101-105 | the status line starts with `HTTP/1.1 ` |
| HttpStatus.ParseStatusLineOf | src/http/status.rs:101-105 | code and message can be read back from the status line |
| HttpStatus.ToHtml | src/http/status.rs:85-98 | the error page is an HTML document |
| HttpStatus.ToHtmlShows | src/http/status.rs:85-98 | the page shows the code as heading and the message, followed by the comment in its own paragraph when there is one |
| HttpStatus.ToHtmlContent | src/http/status.rs:85-98 | the page's content is exactly message plus optional `</p><p>` comment |
| HttpResponse.New | src/http/response.rs:72-85 | a body read successfully is kept with the given type; on error the body is the status page and the type is `text/html` |
| HttpResponse.FromStatus | src/http/response.rs:162-170 | the body is the status page and the type is `text/html` |
| HttpResponse.FromIoError | src/http/response.rs:156-160 | the status is the error's status (403, 404 or 500) and the type is `text/html` |
| HttpResponse.NewOfErrorIsFromStatus | src/http/response.rs:72-85 | `new` with an error equals conversion from the status |
| HttpResponse.FromIoErrorIsNew | src/http/response.rs:156-170 | conversion from an error equals `new` with that error, whatever type was proposed |
| HttpResponse.HeaderTextIsJoin | src/http/response.rs:107-119 | the header is its lines, each ended by CRLF, then an empty line |
| HttpResponse.ParseHeaderText | src/http/response.rs:107-119 | splitting the header at its line ends gives back exactly those lines |
| HttpResponse.HeaderFields | src/http/response.rs:107-119 | Content-Length is the body length in decimal, Content-Type is present iff a type is set, Connection is close |
| HttpResponse.Header | src/http/response.rs:107-119 | the header bytes decode back to the header text |
| HttpResponse.IntoBytes | src/http/response.rs:136-141 | the bytes end with the body unchanged, and what precedes it decodes to the header text |
| HttpResponse.BodyFollowsHeader | src/http/response.rs:136-141 | the bytes are the header, then the body unchanged |
| RequestErrors.Message | src/http/request_err.rs:23-37 | every message begins with `Request `, followed by what is wrong with the request |
| RequestErrors.MessageInjective | src/http/request_err.rs:23-37 | the three errors display differently |
| HttpRequest.Tokens | src/http/request.rs:59 | every token is non-empty and free of ASCII whitespace |
| HttpRequest.TokensOfJoin | src/http/request.rs:59 | words joined by whitespace tokenise back into the same words |
| HttpRequest.Parse | src/http/request.rs:58-70 | Utf8Error iff not UTF-8; NoMethod iff no token; NoPath iff one or two; otherwise the first two tokens |
| HttpRequest.ParseDisplay | src/http/request.rs:58-77 | parsing the displayed request line gives the request back |
| HttpRequest.LinesNotDistinguished | src/http/request.rs:59-69 | words on separate lines parse like a request line |
| HttpRequest.BrokenUtf8Refused | src/http/request.rs:107-115 | the bytes 0, 159, 146, 150 are refused as not UTF-8 |
| FileSystem.Read | src/http/handler.rs:119 | `fs::read` succeeds exactly on files and gives their contents; a missing path is NotFound |
| FileSystem.ReadDir | src/http/handler.rs:15 | `fs::read_dir` succeeds exactly on directories; a missing path is NotFound |
| Handler.RenderedEntries | src/http/handler.rs:15-20 | there is at most one link per directory item; `RenderedMembers` says which |
| Handler.RenderedMembers | src/http/handler.rs:15-20 | the listing's links are exactly those of the entries that could be read |
| Handler.ListDir | src/http/handler.rs:14-37 | succeeds iff the path is a directory, and then gives the listing page |
| Handler.ListingShowsEntry | src/http/handler.rs:14-37 | every readable entry appears on the page |
| Handler.RenderedPermutation | src/http/handler.rs:15-22 | the multiset of links does not depend on the order of the entries |
| Handler.ListingOrderIndependent | src/http/handler.rs:14-37 | the page is the same whatever order the directory yields its entries in |
| Handler.Finish | src/http/handler.rs:134-143 | only the served directory may be looked up after the requested path; outside the index fallback the status is the error mapping of the contents, readable contents give 200, and non-200 answers are HTML |
| Handler.Lookup | src/http/handler.rs:116-143 | a path that passed the guard is looked up first, and then at most the served directory |
| Handler.LookupAnswers | src/http/handler.rs:116-143 | a path that passed the guard is always answered, with 200, 403, 404 or 500, and any answer but 200 is HTML |
| Handler.LookupLists | src/http/handler.rs:118-123 | with listings on, a directory is answered 200 with its listing page as `text/html` |
| Handler.HandleConnection | src/http/handler.rs:81-144 | nothing is looked up unless the request resolves to a path the guard admits; then that path is looked up first, and at most the served directory after it |
| Handler.Answers | src/http/handler.rs:81-144 | unless the worker panics, the status is one of 200, 403, 404, 500, 501, and any answer but 200 is HTML |
| Handler.OtherMethodsNotImplemented | src/http/handler.rs:85-91 | any method other than GET and HEAD gets 501 with the fixed comment and nothing is looked up |
| Handler.PanicIffUndecodable | src/files/path.rs:53 | the worker panics exactly when the decoded path is not UTF-8 |
| Handler.TraversalRefused | src/http/handler.rs:104-114 | a path outside the served directory gets 403 "Directory traversal is not allowed!" and nothing is looked up |
| Handler.Confinement | src/http/handler.rs:102-140 | every path looked up is the served directory followed by plain names only |
| Handler.Admits | src/http/handler.rs:102-116 | a GET or HEAD request whose path the guard admits is answered by looking that path up |
| Handler.LookupReads | src/http/handler.rs:116-143 | a regular file is sent with status 200, its bytes and the type its extension names |
| Handler.LookupMissing | src/http/handler.rs:119-143 | a missing path is 404 "Not Found" outside the index fallback |
| Handler.LookupFallsBack | src/http/handler.rs:134-140 | a missing or unreadable `index.html` is answered, with listings on, with the listing of the served directory |
| Handler.ServesFile | src/http/handler.rs:116-143 | a file under the served directory is sent unchanged with status 200 and the type its extension names |
| Handler.DirectoryRefusedWithoutListing | src/http/handler.rs:118-130 | a directory is refused with 403 when listings are off |
| Handler.DirectoryListed | src/http/handler.rs:120-123 | a directory is listed as `text/html` with status 200 when listings are on |
| Handler.MissingFileNotFound | src/http/handler.rs:119-143 | a missing file is 404 unless the index fallback applies |
| Handler.LookupFails | src/http/handler.rs:119-143 | a path that exists but cannot be read answers with the status its error maps to, as HTML, outside the index fallback |
| Handler.UnreadableFileRefused | src/http/handler.rs:119-143 | an admitted request for an unreadable file gets its error's status (403 for a permission error) as an HTML page, unless the index fallback applies |
| Handler.NameResolves | src/files/path.rs:124-127 | a plain name without `%` resolves to that name directly inside a normalized served directory, and the guard admits it |
| Handler.EncodedNameResolves | src/files/path.rs:124-127 | any request text whose bytes are a client's percent-encoding of a name resolves to that name directly inside the served directory |
| Handler.EncodedRequestResolves | src/files/path.rs:124-127 | the fully percent-encoded text of a name, such as `%F0%9F%A6%80.html`, resolves to the decoded name inside the served directory |
| Handler.RootRequestResolvesToIndex | src/http/handler.rs:93-102 | `/` resolves to `index.html` directly inside the served directory and passes the guard |
| Handler.ReqFilename | src/http/handler.rs:93-100 | `/` asks for `index.html`, once a leading `/` is stripped no `/` begins the file name, and a path without a leading `/` is used unchanged |
| Handler.ReqFilenameStripsSlash | src/http/handler.rs:96-97 | a leading `/` is stripped and the pieces after it are kept |
| Handler.ReqFilenameTrimsEnds | src/http/handler.rs:96-97 | after the leading `/`, empty and `.` pieces at either end are dropped and every piece between the first and last kept one stays |
| Handler.TrailingSlashDropped | src/http/handler.rs:96-97 | `/name/` asks for `name` |
| Handler.SlashNameRequest | src/http/handler.rs:93-100 | `/name` asks for `name`, so `/index.html` asks for the same file as `/` |
| Handler.SameFilenameSameHandling | src/http/handler.rs:93-143 | two request paths with the same file name are answered alike |
| Handler.IndexFallsBackToListing | src/http/handler.rs:134-140 | with listings on and no readable `index.html`, `/` shows the listing of the served directory |
| CliErrors.Message | src/cli/err.rs:23-38 | each message reads back as its fixed texts with the argument between them, the rejected value printed before the argument; an I/O error shows as the system's message |
| CliErrors.MessageInjective | src/cli/err.rs:23-38 | the messages tell the error kinds and arguments apart (two rejected values are compared only when equal) |
| CliConfig.Number | src/cli/config.rs:149-158 | a value is accepted iff it parses as a `usize`, otherwise the error names the option's long form |
| CliConfig.SetOption | src/cli/config.rs:144-160 | only the named setting changes; an unknown key is InvalidArg of that key |
| CliConfig.Step | src/cli/config.rs:110-162 | one turn of the loop consumes at least the argument; switches only turn settings off, numbers read fit a `usize`, a stop without error is help, and InvalidVal names `--port` or `--threads` |
| CliConfig.ParseArgs | src/cli/config.rs:104-164 | switches only turn settings off, numbers read fit a `usize`, and InvalidVal names `--port` or `--threads` |
| CliConfig.OptionTakesNext | src/cli/config.rs:134-142 | an option without `=` consumes the next argument as its value |
| CliConfig.AttachedValueAgrees | src/cli/config.rs:134-141 | `key=value` reads like `key value` |
| CliConfig.SwitchesThen | src/cli/config.rs:115-122 | a run of switches sets the settings independently of order and takes no value |
| CliConfig.HelpStopsReading | src/cli/config.rs:123-130 | help ends reading; nothing after it matters |
| CliConfig.New | src/cli/config.rs:71-90 | a configuration that is served has port and thread count within `usize`; an invalid value is reported against `--port` or `--threads` |
| CliConfig.NoArgumentsServeDefaults | src/cli/config.rs:50-61 | with no arguments the defaults are served |
| CliConfig.PositionalBaseDir | src/cli/config.rs:75-78 | `servum DIR …` means `servum --base-dir DIR …` |
| CliConfig.NumberIsRead | src/cli/config.rs:149-158 | `-p`, `--port`, `-t` or `--threads` followed by a `usize` in decimal sets exactly that setting |
| CliConfig.PortIsRead | src/cli/config.rs:149-158 | any `usize` written in decimal is read back as port or thread count |
| CliConfig.ThreadsAreRead | src/cli/config.rs:154-158 | any `usize` written in decimal is read back as the thread count |
| CliConfig.BadNumberRefused | src/cli/config.rs:149-158 | a non-number is refused, naming `--port` or `--threads` even for `-p` or `-t` |
| CliConfig.ZeroThreadsAccepted | src/cli/config.rs:154-158 | zero threads are accepted |
| CliConfig.LastOptionMissingValue | src/cli/config.rs:142 | an option with no value left is MissingVal |
| CliConfig.SwitchWithValueRefused | src/cli/config.rs:134-159 | `-q=1` is refused as the unknown argument `-q` |
| CliConfig.LaterOccurrenceWins | src/cli/config.rs:110-163 | for every option taking a value, once its first value is accepted, giving it again reads as if only the second value had been given |
| CliConfig.SetOptionOverwrites | src/cli/config.rs:144-160 | setting an option twice leaves only the second value, or the second value's error |
| CliConfig.LaterAddressWins | src/cli/config.rs:110-163 | of two addresses, the second is served |
| CliConfig.UnresolvableBaseDir | src/cli/config.rs:75-86 | a base directory the system cannot resolve ends the program with exit status 1 |
| Text.Split | src/cli/config.rs:137-139 | no piece holds the separator, and there are two pieces or more iff the separator occurs |
| Text.SplitJoin | src/cli/config.rs:137-139 | splitting undoes joining when no piece holds the separator |
| Text.JoinSplit | src/cli/config.rs:137-139 | joining the pieces gives back the text |
| Text.ParseUsize | src/cli/config.rs:150-157 | a number read is at most `usize::MAX`, is the decimal value of the text after an optional leading `+`, and every digit string of value at most `usize::MAX` is accepted |
| Text.PlusSignAccepted | src/cli/config.rs:150-157 | a leading `+` is accepted: `+8080` reads as 8080 |
| Text.LeadingZerosAccepted | src/cli/config.rs:150-157 | leading zeros are accepted and do not change the value: `08080` reads as 8080 |
| Text.ParseUsizeOfNatToString | src/cli/config.rs:150-157 | the decimal text of any `usize` parses back to it |
| Text.Sort | src/http/handler.rs:22 | the result is sorted and a permutation of the input |
| Text.SortDependsOnlyOnMultiset | src/http/handler.rs:22 | sorting two permutations of each other gives the same sequence |
| Utf8.DecodeEncode | src/files/path.rs:53 | decoding the UTF-8 encoding of any text gives it back |
| Utf8.EncodeDecode | src/files/path.rs:53 | bytes that decode are the encoding of what they decode to |

## Left out

- Thread pool, workers and the TCP accept loop (src/bin/main.rs, src/multiprocessing/): concurrency and socket I/O, outside this model.
- The 1024-byte read buffer and writing of the response: I/O. The difference between GET and HEAD is made only when writing, so the handler answers both alike here.
- Console output (src/cli/tui.rs), the help texts and `process::exit`: printing. Help is the outcome `HelpShown` with exit status 0, and an error is `Failed` with exit status 1.
- The real file system, `canonicalize` and `current_dir`: an abstract map and parameters stand in for them. Symbolic links, permissions and metadata are not represented. A `Broken` node gives any error kind.
- Windows path prefixes (`Component::Prefix`): paths are POSIX paths.
- File names that are not UTF-8 (`to_str().unwrap()` in mime.rs and file.rs): names are `string`.
- `source()` of both error types: it is `None` for every variant and has no observable effect.
- The `dbg!` call in status.rs and the debugging `Display` of a response.
- HTML escaping: the source substitutes text verbatim, and so does the model.
- CliErrors.MessageInjective: two InvalidVal errors with different values are not compared, because a value that itself holds " for argument " can make two such messages equal (`InvalidVal("b", "x for argument a")` and `InvalidVal("a for argument b", "x")` print alike).
- Mime.TypeForExtension: the 75-arm table carries no contract of its own, because a property over every arm exceeds the verifier's resource budget; `Mime.GuessMimeType` and the family lemmas (`Mime.HtmlExtensions`, `Mime.JavascriptExtensions`, `Mime.ImageExtensions`, `Mime.UpperCaseUnknown`) state what it does.
- HttpStatus.ToHtml: stated through `Contains` and the content read-back rather than the full template text, which `Html.HtmlDoc` already pins down.
- Handler.IndexFallsBackToListing: stated for `/`; `/index.html` follows through `Handler.SlashNameRequest` and `Handler.SameFilenameSameHandling`. It assumes a normalized served directory, which `canonicalize` and `current_dir` provide.
- Handler.Confinement: the guard is lexical, and the file system map has no symbolic links, so a link inside the served directory pointing out of it is not modelled.

=== FILE: cli_config.dfy ===
/** Server configuration from the command line (cli/config.rs). Options
    are read left to right; the switches `-q`/`--quiet` and `--no-list-dir`
    turn a setting off, `-h`/`--help` stops reading, and every other option
    takes a value, either attached with `=` or as the next argument.

    The current directory and `Path::canonicalize` are calls into the
    operating system and enter as parameters. */
module CliConfig {
  import opened Results
  import opened Text
  import opened Paths
  import opened IoErrors
  import opened CliErrors

  datatype Config = Config(address: string, base_dir: Path, list_dir: bool, port: nat, threads: nat, verbose: bool)

  /** `Path::canonicalize` as the system answers it. */
  type Canonicalize = string -> Result<Path, IoError>

  /** `Config::default`, serving `cwd` (`env::current_dir`). */
  function Default(cwd: Path): Config {
    Config("127.0.0.1", cwd, true, 8080, 4, true)
  }

  /** The switches, which take no value. */
  predicate IsSwitch(el: string) {
    el == "-q" || el == "--quiet" || el == "--no-list-dir"
  }

  predicate IsHelp(el: string) {
    el == "-h" || el == "--help"
  }

  /** The options that take a value. */
  predicate IsOption(key: string) {
    key in {"--base-dir", "-a", "--address", "-p", "--port", "-t", "--threads"}
  }

  /** A `usize` option value, or the error naming the option by its long form. */
  function Number(long: string, val: string): (r: Result<nat, CliError>)
    ensures r.Ok? ==> r.value <= USIZE_MAX
    ensures r.Err? <==> ParseUsize(val).None?
    ensures r.Err? ==> r.error == InvalidVal(long, val)
  {
    match ParseUsize(val)
    case Some(n) => Ok(n)
    case None => Err(InvalidVal(long, val))
  }

  /** Sets the option `key` to `val`, or reports why it cannot. */
  function SetOption(key: string, val: string, conf: Config, canon: Canonicalize): (r: Result<Config, CliError>)
    ensures r.Ok? ==> r.value.list_dir == conf.list_dir && r.value.verbose == conf.verbose
    ensures r.Ok? && key != "--base-dir" ==> r.value.base_dir == conf.base_dir
    ensures r.Ok? && key != "-a" && key != "--address" ==> r.value.address == conf.address
    ensures r.Ok? && key != "-p" && key != "--port" ==> r.value.port == conf.port
    ensures r.Ok? && key != "-t" && key != "--threads" ==> r.value.threads == conf.threads
    ensures r.Ok? ==> r.value.port == conf.port || r.value.port <= USIZE_MAX
    ensures r.Ok? ==> r.value.threads == conf.threads || r.value.threads <= USIZE_MAX
    ensures r == Err(InvalidArg(key)) <==> !IsOption(key)
    ensures r.Err? && r.error.InvalidVal? ==> r.error.arg in {"--port", "--threads"}
  {
    if key == "--base-dir" then
      match canon(val)
      case Ok(p) => Ok(conf.(base_dir := p))
      case Err(e) => Err(IOError(e))
    else if key == "-a" || key == "--address" then Ok(conf.(address := val))
    else if key == "-p" || key == "--port" then
      match Number("--port", val)
      case Ok(n) => Ok(conf.(port := n))
      case Err(e) => Err(e)
    else if key == "-t" || key == "--threads" then
      match Number("--threads", val)
      case Ok(n) => Ok(conf.(threads := n))
      case Err(e) => Err(e)
    else Err(InvalidArg(key))
  }

  /** One turn of the loop in `parse_args`: the argument at the head either
      ends reading with a result, or updates the configuration and uses up
      `used` arguments (two when the value is the next argument). */
  datatype Turn = Stop(result: Result<(bool, Config), CliError>) | Next(used: nat, conf: Config)

  function Step(args: seq<string>, conf: Config, canon: Canonicalize): (t: Turn)
    requires 0 < |args|
    ensures t.Next? ==> 1 <= t.used <= |args|
    ensures t.Next? ==> (t.conf.verbose ==> conf.verbose) && (t.conf.list_dir ==> conf.list_dir)
    ensures t.Next? && conf.port <= USIZE_MAX ==> t.conf.port <= USIZE_MAX
    ensures t.Next? && conf.threads <= USIZE_MAX ==> t.conf.threads <= USIZE_MAX
    ensures t.Stop? && t.result.Ok? ==> t.result.value == (true, conf)
    ensures t.Stop? && t.result.Err? && t.result.error.InvalidVal? ==> t.result.error.arg in {"--port", "--threads"}
  {
    var el := args[0];
    if el == "-q" || el == "--quiet" then Next(1, conf.(verbose := false))
    else if el == "--no-list-dir" then Next(1, conf.(list_dir := false))
    else if IsHelp(el) then Stop(Ok((true, conf)))
    else if '=' in el then
      var pieces := Split(el, '=');
      match SetOption(pieces[0], pieces[1], conf, canon)
      case Err(e) => Stop(Err(e))
      case Ok(c) => Next(1, c)
    else if |args| == 1 then Stop(Err(MissingVal(el)))
    else
      match SetOption(el, args[1], conf, canon)
      case Err(e) => Stop(Err(e))
      case Ok(c) => Next(2, c)
  }

  /** `parse_args`: Ok(true, _) when help was shown, Ok(false, c) with the
      resulting configuration otherwise. Switches only ever turn settings
      off, and numbers read in always fit a `usize`. */
  function ParseArgs(args: seq<string>, conf: Config, canon: Canonicalize): (r: Result<(bool, Config), CliError>)
    ensures r.Ok? ==> (r.value.1.verbose ==> conf.verbose) && (r.value.1.list_dir ==> conf.list_dir)
    ensures r.Ok? && conf.port <= USIZE_MAX ==> r.value.1.port <= USIZE_MAX
    ensures r.Ok? && conf.threads <= USIZE_MAX ==> r.value.1.threads <= USIZE_MAX
    ensures r.Err? && r.error.InvalidVal? ==> r.error.arg in {"--port", "--threads"}
    decreases |args|
  {
    if |args| == 0 then Ok((false, conf))
    else
      match Step(args, conf, canon)
      case Stop(result) => result
      case Next(used, c) => ParseArgs(args[used..], c, canon)
  }

  /** How `Config::new` ends: serving with a configuration, exiting with
      status 0 after the help text, or exiting with status 1 after an error. */
  datatype Outcome = Serve(conf: Config) | HelpShown | Failed(error: CliError)

  function ExitCode(o: Outcome): Option<nat> {
    match o
    case Serve(_) => None
    case HelpShown => Some(0)
    case Failed(_) => Some(1)
  }

  /** A first argument that is not an option names the served directory. */
  function WithBaseDir(args: seq<string>): (r: seq<string>)
    ensures 0 < |args| && !StartsWith(args[0], "-") ==> r == ["--base-dir"] + args
    ensures (|args| == 0 || StartsWith(args[0], "-")) ==> r == args
  {
    if 0 < |args| && !StartsWith(args[0], "-") then ["--base-dir"] + args else args
  }

  /** `Config::new` on the arguments after the program name. */
  function New(args: seq<string>, cwd: Path, canon: Canonicalize): (o: Outcome)
    ensures o.Serve? ==> o.conf.port <= USIZE_MAX && o.conf.threads <= USIZE_MAX
    ensures o.Failed? && o.error.InvalidVal? ==> o.error.arg in {"--port", "--threads"}
  {
    match ParseArgs(WithBaseDir(args), Default(cwd), canon)
    case Err(e) => Failed(e)
    case Ok((true, _)) => HelpShown
    case Ok((false, c)) => Serve(c)
  }

  // ---------------------------------------------------------------------
  // Properties
  // ---------------------------------------------------------------------

  /** The switches among `flags`, applied to `conf` independently of order. */
  function Switched(flags: seq<string>, conf: Config): Config {
    conf.(verbose := conf.verbose && "-q" !in flags && "--quiet" !in flags,
          list_dir := conf.list_dir && "--no-list-dir" !in flags)
  }

  /** Reading a run of switches amounts to applying them all at once. */
  lemma {:induction false} SwitchesThen(flags: seq<string>, rest: seq<string>, conf: Config, canon: Canonicalize)
    requires forall i :: 0 <= i < |flags| ==> IsSwitch(flags[i])
    ensures ParseArgs(flags + rest, conf, canon) == ParseArgs(rest, Switched(flags, conf), canon)
    decreases |flags|
  {
    if |flags| == 0 {
      assert flags + rest == rest;
      assert Switched(flags, conf) == conf;
    } else {
      assert (flags + rest)[1..] == flags[1..] + rest;
      var el := flags[0];
      var c := if el == "--no-list-dir" then conf.(list_dir := false) else conf.(verbose := false);
      SwitchesThen(flags[1..], rest, c, canon);
      assert flags == [el] + flags[1..];
      assert Switched(flags[1..], c) == Switched(flags, conf);
    }
  }

  /** Help shown after any switches ends reading: nothing after it matters. */
  lemma HelpStopsReading(flags: seq<string>, help: string, rest: seq<string>, conf: Config, canon: Canonicalize)
    requires forall i :: 0 <= i < |flags| ==> IsSwitch(flags[i])
    requires IsHelp(help)
    ensures ParseArgs(flags + [help] + rest, conf, canon) == Ok((true, Switched(flags, conf)))
  {
    assert flags + [help] + rest == flags + ([help] + rest);
    SwitchesThen(flags, [help] + rest, conf, canon);
  }

  /** Without arguments the server runs with the defaults. */
  lemma NoArgumentsServeDefaults(cwd: Path, canon: Canonicalize)
    ensures New([], cwd, canon) == Serve(Default(cwd))
  {
  }

  /** `servum DIR ...` means `servum --base-dir DIR ...`. */
  lemma PositionalBaseDir(dir: string, rest: seq<string>, cwd: Path, canon: Canonicalize)
    requires !StartsWith(dir, "-")
    ensures New([dir] + rest, cwd, canon) == New(["--base-dir", dir] + rest, cwd, canon)
  {
    assert (["--base-dir", dir] + rest)[0] == "--base-dir";
    assert ["--base-dir"] + ([dir] + rest) == ["--base-dir", dir] + rest;
  }

  /** `key=value` and `key value` are read alike (when neither part holds
      another `=`). */
  lemma AttachedValueAgrees(key: string, val: string, rest: seq<string>, conf: Config, canon: Canonicalize)
    requires '=' !in key && '=' !in val
    requires !IsSwitch(key) && !IsHelp(key)
    ensures ParseArgs([key + "=" + val] + rest, conf, canon) == ParseArgs([key, val] + rest, conf, canon)
  {
    var el := key + "=" + val;
    assert el[|key|] == '=';
    assert !IsSwitch(el) && !IsHelp(el) by {
      assert el[|key|] in el;
    }
    var sr := SetOption(key, val, conf, canon);
    calc {
      ParseArgs([el] + rest, conf, canon);
      { AttachedStep(el, rest, conf, canon); AttachedSplit(key, val); }
      if sr.Ok? then ParseArgs(rest, sr.value, canon) else Err(sr.error);
      { OptionTakesNext(key, val, rest, conf, canon); }
      ParseArgs([key, val] + rest, conf, canon);
    }
  }

  /** Any port a `usize` can hold is read back from its decimal text. */
  lemma PortIsRead(n: nat, conf: Config, canon: Canonicalize)
    requires n <= USIZE_MAX
    ensures ParseArgs(["--port", NatToString(n)], conf, canon) == Ok((false, conf.(port := n)))
    ensures ParseArgs(["-t", NatToString(n)], conf, canon) == Ok((false, conf.(threads := n)))
  {
    NumberIsRead("--port", n, conf, canon);
    NumberIsRead("-t", n, conf, canon);
    assert NumberSet("--port", n, conf) == conf.(port := n);
  }

  lemma ThreadsAreRead(n: nat, conf: Config, canon: Canonicalize)
    requires n <= USIZE_MAX
    ensures ParseArgs(["--threads", NatToString(n)], conf, canon) == Ok((false, conf.(threads := n)))
  {
    NumberIsRead("--threads", n, conf, canon);
  }

  /** The configuration a numeric option sets. */
  function NumberSet(key: string, n: nat, conf: Config): Config {
    if key == "-p" || key == "--port" then conf.(port := n) else conf.(threads := n)
  }

  /** A numeric option followed by the decimal text of a `usize` sets it. */
  lemma NumberIsRead(key: string, n: nat, conf: Config, canon: Canonicalize)
    requires key in {"-p", "--port", "-t", "--threads"}
    requires n <= USIZE_MAX
    ensures ParseArgs([key, NatToString(n)], conf, canon) == Ok((false, NumberSet(key, n, conf)))
  {
    NumberIsSet(key, n, conf, canon);
    NumberKeyTakesValue(key);
    OptionIsLast(key, NatToString(n), conf, canon);
  }

  /** The numeric options take a value and are neither switches nor help. */
  lemma NumberKeyTakesValue(key: string)
    requires key in {"-p", "--port", "-t", "--threads"}
    ensures '=' !in key && !IsSwitch(key) && !IsHelp(key)
  {
  }

  lemma NumberIsSet(key: string, n: nat, conf: Config, canon: Canonicalize)
    requires key in {"-p", "--port", "-t", "--threads"}
    requires n <= USIZE_MAX
    ensures SetOption(key, NatToString(n), conf, canon) == Ok(NumberSet(key, n, conf))
  {
    ParseUsizeOfNatToString(n);
  }

  /** An option with its value as the last two arguments. */
  lemma OptionIsLast(key: string, val: string, conf: Config, canon: Canonicalize)
    requires '=' !in key && !IsSwitch(key) && !IsHelp(key)
    ensures var sr := SetOption(key, val, conf, canon);
            ParseArgs([key, val], conf, canon) == if sr.Ok? then Ok((false, sr.value)) else Err(sr.error)
  {
    assert [key, val][2..] == [];
  }

  /** A value that is not a `usize` is refused, and the error names the
      option by its long form even when the short form was given. */
  lemma BadNumberRefused(val: string, conf: Config, canon: Canonicalize)
    requires ParseUsize(val).None?
    ensures ParseArgs(["-p", val], conf, canon) == Err(InvalidVal("--port", val))
    ensures ParseArgs(["-t", val], conf, canon) == Err(InvalidVal("--threads", val))
  {
  }

  /** Zero threads is accepted by the parser. */
  lemma ZeroThreadsAccepted(conf: Config, canon: Canonicalize)
    ensures ParseArgs(["--threads", "0"], conf, canon) == Ok((false, conf.(threads := 0)))
  {
    var zero := NatToString(0);
    assert zero == "0";
    ThreadsAreRead(0, conf, canon);
    assert ["--threads", zero] == ["--threads", "0"];
  }

  /** An option that needs a value and is last is refused as missing one. */
  lemma LastOptionMissingValue(key: string, conf: Config, canon: Canonicalize)
    requires '=' !in key && !IsSwitch(key) && !IsHelp(key)
    ensures ParseArgs([key], conf, canon) == Err(MissingVal(key))
  {
  }

  /** A switch given a value is no longer recognised: `-q=1` is refused as
      the unknown option `-q`. */
  lemma SwitchWithValueRefused(conf: Config, canon: Canonicalize)
    ensures ParseArgs(["-q=1"], conf, canon) == Err(InvalidArg("-q"))
  {
    var el := "-q" + "=" + "1";
    assert el == "-q=1";
    assert el[2] == '=';
    AttachedSplit("-q", "1");
    AttachedStep(el, [], conf, canon);
    assert [el] + [] == ["-q=1"];
  }

  /** An argument holding `=` is split into an option and its value. */
  lemma AttachedStep(el: string, rest: seq<string>, conf: Config, canon: Canonicalize)
    requires '=' in el && !IsSwitch(el) && !IsHelp(el)
    ensures var pieces := Split(el, '=');
            var sr := SetOption(pieces[0], pieces[1], conf, canon);
            ParseArgs([el] + rest, conf, canon)
            == if sr.Ok? then ParseArgs(rest, sr.value, canon) else Err(sr.error)
  {
    assert ([el] + rest)[0] == el && ([el] + rest)[1..] == rest;
  }

  lemma AttachedSplit(key: string, val: string)
    requires '=' !in key && '=' !in val
    ensures Split(key + "=" + val, '=') == [key, val]
  {
    SplitWithoutSep(val, '=');
    assert Split("=" + val, '=') == [""] + Split(val, '=') by {
      assert ("=" + val)[1..] == val;
    }
    SplitGlue(key, "=" + val, '=');
    assert key + "" == key;
    assert key + "=" + val == key + ("=" + val);
  }

  /** An option without `=` consumes the next argument as its value. */
  lemma OptionTakesNext(key: string, val: string, rest: seq<string>, conf: Config, canon: Canonicalize)
    requires '=' !in key && !IsSwitch(key) && !IsHelp(key)
    ensures var sr := SetOption(key, val, conf, canon);
            ParseArgs([key, val] + rest, conf, canon)
            == if sr.Ok? then ParseArgs(rest, sr.value, canon) else Err(sr.error)
  {
    assert ([key, val] + rest)[0] == key && ([key, val] + rest)[1] == val;
    assert ([key, val] + rest)[2..] == rest;
  }

  /** A later occurrence of an option overrides an earlier one: once the
      first value is accepted, reading goes on as if it had not been given. */
  lemma LaterOccurrenceWins(key: string, x: string, y: string, rest: seq<string>, conf: Config, canon: Canonicalize)
    requires IsOption(key) && '=' !in key
    requires SetOption(key, x, conf, canon).Ok?
    ensures ParseArgs([key, x, key, y] + rest, conf, canon) == ParseArgs([key, y] + rest, conf, canon)
  {
    var c := SetOption(key, x, conf, canon).value;
    assert [key, x, key, y] + rest == [key, x] + ([key, y] + rest);
    OptionTakesNext(key, x, [key, y] + rest, conf, canon);
    OptionTakesNext(key, y, rest, c, canon);
    OptionTakesNext(key, y, rest, conf, canon);
    SetOptionOverwrites(key, x, y, conf, canon);
  }

  /** Setting an option twice leaves only the second value. */
  lemma SetOptionOverwrites(key: string, x: string, y: string, conf: Config, canon: Canonicalize)
    requires SetOption(key, x, conf, canon).Ok?
    ensures SetOption(key, y, SetOption(key, x, conf, canon).value, canon) == SetOption(key, y, conf, canon)
  {
  }

  /** Two addresses: the second is served. */
  lemma LaterAddressWins(key: string, x: string, y: string, conf: Config, canon: Canonicalize)
    requires key == "-a" || key == "--address"
    ensures ParseArgs([key, x, key, y], conf, canon) == Ok((false, conf.(address := y)))
  {
    var c := conf.(address := x);
    assert [key, x, key, y] == [key, x] + [key, y];
    AddressIsRead(key, x, [key, y], conf, canon);
    AddressIsRead(key, y, [], c, canon);
    assert [key, y] + [] == [key, y];
  }

  /** An address option sets the address and reading goes on after its value. */
  lemma AddressIsRead(key: string, val: string, rest: seq<string>, conf: Config, canon: Canonicalize)
    requires key == "-a" || key == "--address"
    ensures ParseArgs([key, val] + rest, conf, canon) == ParseArgs(rest, conf.(address := val), canon)
  {
    OptionTakesNext(key, val, rest, conf, canon);
  }

  /** A base directory the system cannot resolve stops the program with its error. */
  lemma UnresolvableBaseDir(dir: string, rest: seq<string>, cwd: Path, canon: Canonicalize)
    requires !StartsWith(dir, "-") && canon(dir).Err?
    ensures New([dir] + rest, cwd, canon) == Failed(IOError(canon(dir).error))
    ensures ExitCode(New([dir] + rest, cwd, canon)) == Some(1)
  {
    var args := ["--base-dir", dir] + rest;
    assert WithBaseDir([dir] + rest) == args;
    OptionTakesNext("--base-dir", dir, rest, Default(cwd), canon);
    assert ParseArgs(args, Default(cwd), canon) == Err(IOError(canon(dir).error));
  }
}

=== FILE: cli_errors.dfy ===
/** Why the command line could not be read (cli/err.rs). */
module CliErrors {
  import opened Text
  import opened IoErrors

  datatype CliError =
    | InvalidArg(arg: string)
    | InvalidVal(arg: string, val: string)
    | MissingVal(arg: string)
    | IOError(err: IoError)

  /** The fixed parts of the messages. */
  const INVALID_ARG := "Invalid argument "
  const INVALID_ARG_END := " found."
  const MISSING_VAL := "Missing value for argument "
  const INVALID_VAL := "Invalid value "
  const FOR_ARG := " for argument "
  const INVALID_VAL_END := " found"

  /** `Display`: the message printed before the process exits. Each message
      names the argument at fault between its fixed parts; a rejected value
      is printed before the argument it was given to. */
  function Message(e: CliError): (r: string)
    ensures e.InvalidArg? ==> Contains(r, e.arg)
    ensures e.MissingVal? ==> Contains(r, e.arg)
    ensures e.InvalidVal? ==> Contains(r, e.arg) && Contains(r, e.val)
    ensures e.InvalidArg? ==>
              |r| == |INVALID_ARG| + |e.arg| + |INVALID_ARG_END|
              && StartsWith(r, INVALID_ARG) && EndsWith(r, INVALID_ARG_END)
              && r[|INVALID_ARG|..|r| - |INVALID_ARG_END|] == e.arg
    ensures e.MissingVal? ==>
              StartsWith(r, MISSING_VAL) && r[|MISSING_VAL|..] == e.arg
    ensures e.InvalidVal? ==>
              |r| == |INVALID_VAL + e.val + FOR_ARG| + |e.arg| + |INVALID_VAL_END|
              && StartsWith(r, INVALID_VAL + e.val + FOR_ARG) && EndsWith(r, INVALID_VAL_END)
              && r[|INVALID_VAL + e.val + FOR_ARG|..|r| - |INVALID_VAL_END|] == e.arg
    ensures e.IOError? ==> r == IoErrors.Display(e.err)
  {
    match e
    case InvalidArg(a) =>
      var r := INVALID_ARG + a + INVALID_ARG_END;
      ContainsMiddle(INVALID_ARG, a, INVALID_ARG_END);
      assert r[..|INVALID_ARG|] == INVALID_ARG;
      assert r[|r| - |INVALID_ARG_END|..] == INVALID_ARG_END;
      assert r[|INVALID_ARG|..|r| - |INVALID_ARG_END|] == a;
      r
    case MissingVal(a) =>
      var r := MISSING_VAL + a;
      ContainsMiddle(MISSING_VAL, a, "");
      assert MISSING_VAL + a + "" == r;
      assert r[..|MISSING_VAL|] == MISSING_VAL && r[|MISSING_VAL|..] == a;
      r
    case InvalidVal(a, v) =>
      var head := INVALID_VAL + v + FOR_ARG;
      var r := head + a + INVALID_VAL_END;
      ContainsMiddle(INVALID_VAL, v, FOR_ARG + a + INVALID_VAL_END);
      assert INVALID_VAL + v + (FOR_ARG + a + INVALID_VAL_END) == r;
      ContainsMiddle(head, a, INVALID_VAL_END);
      assert r[..|head|] == head;
      assert r[|r| - |INVALID_VAL_END|..] == INVALID_VAL_END;
      assert r[|head|..|r| - |INVALID_VAL_END|] == a;
      r
    case IOError(err) => IoErrors.Display(err)
  }

  /** The messages tell the errors apart: the kind is read from the fixed
      text, the argument from between the fixed parts. Two rejected values
      are compared only when they are the same, since a value holding
      " for argument " could shift where the argument seems to start. */
  lemma MessageInjective(a: CliError, b: CliError)
    requires !a.IOError? && !b.IOError?
    requires a.InvalidVal? && b.InvalidVal? ==> a.val == b.val
    requires Message(a) == Message(b)
    ensures a == b
  {
    MessageKind(a);
    MessageKind(b);
  }

  /** The kind of error shows in the first and ninth characters. */
  lemma MessageKind(e: CliError)
    ensures !e.IOError? ==> 8 < |Message(e)| && Message(e)[0] == (if e.MissingVal? then 'M' else 'I')
    ensures e.InvalidArg? || e.InvalidVal? ==> Message(e)[8] == (if e.InvalidArg? then 'a' else 'v')
  {
    var r := Message(e);
    if e.MissingVal? {
      assert r[..|MISSING_VAL|] == MISSING_VAL;
    } else if e.InvalidArg? {
      assert r[..|INVALID_ARG|] == INVALID_ARG;
    } else if e.InvalidVal? {
      assert r[..|INVALID_VAL|] == (INVALID_VAL + e.val + FOR_ARG)[..|INVALID_VAL|] == INVALID_VAL;
    }
  }
}

=== FILE: dir_entries.dfy ===
/** One entry of a directory listing as an HTML link (files/file.rs). */
module DirEntries {
  import opened Text

  /** What `DirEntry::file_type` reports: a directory, anything else, or an
      error (the entry's type could not be read). */
  datatype EntryKind = DirKind | OtherKind | UnknownKind

  datatype Entry = Entry(name: string, kind: EntryKind)

  const LINK_OPEN := "<a href=\"./"

  /** The slash that marks a directory; an entry whose type cannot be read
      is shown as a file. */
  function Suffix(k: EntryKind): string {
    if k == DirKind then "/" else ""
  }

  /** The name as shown, with the directory slash. */
  function ShownName(e: Entry): string {
    e.name + Suffix(e.kind)
  }

  /** `Display for File`: a relative link whose target and text are both the
      shown name. */
  function Render(e: Entry): (r: string)
    ensures |r| == 17 + 2 * |ShownName(e)|
    ensures StartsWith(r, LINK_OPEN) && EndsWith(r, "</a>")
  {
    var x := ShownName(e);
    var r := LINK_OPEN + x + "\">" + x + "</a>";
    assert r[..11] == LINK_OPEN;
    r
  }

  /** A reader's view of a rendered link: the text between `./` and the
      closing quote. */
  function LinkTarget(r: string): string
    requires 17 <= |r| && (|r| - 17) % 2 == 0
  {
    r[11..11 + (|r| - 17) / 2]
  }

  lemma LinkTargetOfRender(e: Entry)
    ensures LinkTarget(Render(e)) == ShownName(e)
  {
    var x := ShownName(e);
    var r := Render(e);
    assert r == LINK_OPEN + x + ("\">" + x + "</a>");
    assert r[11..11 + |x|] == x;
  }

  /** The anchor text follows the closing quote and bracket, and is the
      shown name again. */
  lemma LinkTextOfRender(e: Entry)
    ensures var x := ShownName(e); var r := Render(e);
            r[11 + |x|..13 + |x|] == "\">" && r[13 + |x|..|r| - 4] == x
  {
    var x := ShownName(e);
    var r := Render(e);
    assert r == (LINK_OPEN + x) + "\">" + x + "</a>";
    assert |LINK_OPEN + x| == 11 + |x|;
  }

  /** Names cannot contain `/`, so a rendered link identifies the entry's
      name and whether it is a directory. */
  lemma RenderInjective(a: Entry, b: Entry)
    requires '/' !in a.name && '/' !in b.name
    requires Render(a) == Render(b)
    ensures a.name == b.name
    ensures a.kind == DirKind <==> b.kind == DirKind
  {
    LinkTargetOfRender(a);
    LinkTargetOfRender(b);
    var x := ShownName(a);
    assert x == ShownName(b);
    EndsWithSlashIffDir(a);
    EndsWithSlashIffDir(b);
    assert a.name == x[..|x| - |Suffix(a.kind)|];
  }

  /** The shown name ends in `/` exactly for a directory. */
  lemma EndsWithSlashIffDir(e: Entry)
    requires '/' !in e.name
    ensures var x := ShownName(e); e.kind == DirKind <==> 0 < |x| && x[|x| - 1] == '/'
  {
    var x := ShownName(e);
    if e.kind != DirKind && 0 < |x| {
      assert x == e.name;
      assert x[|x| - 1] in e.name;
    }
  }

  /** A regular file `index.html` is linked by its plain name. */
  lemma IndexFileLink()
    ensures Render(Entry("index.html", OtherKind)) == "<a href=\"./index.html\">index.html</a>"
  {
    var x := ShownName(Entry("index.html", OtherKind));
    assert x == "index.html";
  }
}

=== FILE: file_system.dfy ===
/** The file system as the handler sees it through `fs::read`, `fs::read_dir`
    and `Path::is_dir`: a finite map from normalized paths to nodes. Paths
    not in the map do not exist. Symbolic links, metadata and concurrent
    changes are not represented. */
module FileSystem {
  import opened Results
  import opened Text
  import opened IoErrors
  import opened Paths
  import opened DirEntries

  /** One result of iterating `fs::read_dir`: an entry, or an entry that
      could not be read (the listing drops those). */
  datatype DirItem = Listed(entry: Entry) | Unlisted

  /** A regular file with its contents, a directory with its items in the
      order the system yields them, or a node every access to which fails. */
  datatype Node = File(data: Bytes) | Dir(items: seq<DirItem>) | Broken(error: IoError)

  type FileSystem = map<Path, Node>

  /** The errors the system reports (Linux numbering). */
  const NOT_FOUND := Os(NotFound, 2, "No such file or directory")
  const IS_A_DIRECTORY := Os(IsADirectory, 21, "Is a directory")
  const NOT_A_DIRECTORY := Os(NotADirectory, 20, "Not a directory")

  /** `Path::is_dir`: true only for an existing, readable directory. */
  predicate IsDir(fs: FileSystem, p: Path) {
    p in fs && fs[p].Dir?
  }

  /** `fs::read`: the contents of a regular file. */
  function Read(fs: FileSystem, p: Path): (r: Result<Bytes, IoError>)
    ensures r.Ok? <==> p in fs && fs[p].File?
    ensures r.Ok? ==> r.value == fs[p].data
    ensures p !in fs ==> r == Err(NOT_FOUND)
  {
    if p !in fs then Err(NOT_FOUND)
    else
      match fs[p]
      case File(data) => Ok(data)
      case Dir(_) => Err(IS_A_DIRECTORY)
      case Broken(e) => Err(e)
  }

  /** `fs::read_dir`: the items of a directory. */
  function ReadDir(fs: FileSystem, p: Path): (r: Result<seq<DirItem>, IoError>)
    ensures r.Ok? <==> IsDir(fs, p)
    ensures r.Ok? ==> r.value == fs[p].items
    ensures p !in fs ==> r == Err(NOT_FOUND)
  {
    if p !in fs then Err(NOT_FOUND)
    else
      match fs[p]
      case File(_) => Err(NOT_A_DIRECTORY)
      case Dir(items) => Ok(items)
      case Broken(e) => Err(e)
  }
}

=== FILE: handler.dfy ===
/** Answering one request (http/handler.rs): only GET and HEAD are served;
    the path is decoded, joined onto the served directory and normalized; a
    result outside that directory is refused; a directory is listed (or
    refused when listings are off); a file is read; and a missing
    `index.html` at the top falls back to listing the served directory.

    The handler's result records which paths it asked the file system
    about, so that confinement to the served directory can be stated. */
module Handler {
  import opened Results
  import opened Text
  import opened IoErrors
  import opened Paths
  import opened DirEntries
  import opened FileSystem
  import opened HttpRequest
  import Utf8
  import Html
  import Mime
  import HttpStatus
  import HttpResponse
  import CliConfig

  // ---------------------------------------------------------------------
  // Directory listings
  // ---------------------------------------------------------------------

  /** The links of the entries that could be read, in the order the
      directory yields them (`filter_map` over `read_dir`). */
  function RenderedEntries(items: seq<DirItem>): (r: seq<string>)
    ensures |r| <= |items|
    decreases |items|
  {
    if |items| == 0 then []
    else
      var rest := RenderedEntries(items[1..]);
      match items[0]
      case Listed(e) => [Render(e)] + rest
      case Unlisted => rest
  }

  /** The listing links are exactly those of the readable entries. */
  lemma {:induction false} RenderedMembers(items: seq<DirItem>, x: string)
    ensures x in RenderedEntries(items)
            <==> exists j :: 0 <= j < |items| && items[j].Listed? && x == Render(items[j].entry)
    decreases |items|
  {
    if |items| > 0 {
      var tail := items[1..];
      RenderedMembers(tail, x);
      if exists j :: 0 <= j < |items| && items[j].Listed? && x == Render(items[j].entry) {
        var j :| 0 <= j < |items| && items[j].Listed? && x == Render(items[j].entry);
        if j > 0 {
          assert tail[j - 1] == items[j];
        }
      }
      if exists j :: 0 <= j < |tail| && tail[j].Listed? && x == Render(tail[j].entry) {
        var j :| 0 <= j < |tail| && tail[j].Listed? && x == Render(tail[j].entry);
        assert items[j + 1] == tail[j];
      }
    }
  }

  const PARENT_LINK := "<a href=\"./../\">&uarr; Parent Directory</a><ul><li>"
  const ITEM_SEP := "</li><li>"
  const LIST_END := "</li></ul>"

  /** The body of a listing: a link to the parent, then the links sorted as
      strings, one list item each. */
  function ListingContent(rendered: seq<string>): string {
    PARENT_LINK + Join(Sort(rendered), ITEM_SEP) + LIST_END
  }

  /** The listing page of a directory. */
  function ListingPage(path: Path, items: seq<DirItem>): string {
    Html.HtmlDoc("Directory Listing", "Listing for " + PathText(path), ListingContent(RenderedEntries(items)))
  }

  /** `list_dir`: the listing page as bytes, or the error of `read_dir`. */
  function ListDir(fs: FileSystem, path: Path): (r: Result<Bytes, IoError>)
    ensures r.Ok? <==> IsDir(fs, path)
    ensures r.Ok? ==> Utf8.Decode(r.value) == Some(ListingPage(path, fs[path].items))
    ensures r.Err? ==> r == Err(ReadDir(fs, path).error)
  {
    match ReadDir(fs, path)
    case Ok(items) =>
      Utf8.DecodeEncode(ListingPage(path, items));
      Ok(Utf8.Encode(ListingPage(path, items)))
    case Err(e) => Err(e)
  }

  /** Every entry that could be read appears as a link on the page. */
  lemma ListingShowsEntry(path: Path, items: seq<DirItem>, j: int)
    requires 0 <= j < |items| && items[j].Listed?
    ensures Contains(ListingPage(path, items), Render(items[j].entry))
  {
    var rendered := RenderedEntries(items);
    var x := Render(items[j].entry);
    RenderedMembers(items, x);
    assert x in rendered;
    var sorted := Sort(rendered);
    assert x in multiset(rendered);
    assert x in sorted by {
      assert x in multiset(sorted);
    }
    var k :| 0 <= k < |sorted| && sorted[k] == x;
    JoinContainsPiece(sorted, ITEM_SEP, k);
    ContainsWidens(Join(sorted, ITEM_SEP), x, PARENT_LINK, LIST_END);
    var title, lead := "Directory Listing", "Listing for " + PathText(path);
    var content := ListingContent(rendered);
    var pre := Html.Preamble(title, lead);
    assert ListingPage(path, items) == pre + content + Html.DOC_TAIL;
    ContainsWidens(content, x, pre, Html.DOC_TAIL);
  }

  lemma {:induction false} RenderedConcat(a: seq<DirItem>, b: seq<DirItem>)
    ensures RenderedEntries(a + b) == RenderedEntries(a) + RenderedEntries(b)
    decreases |a|
  {
    if |a| > 0 {
      assert (a + b)[0] == a[0] && (a + b)[1..] == a[1..] + b;
      RenderedConcat(a[1..], b);
    } else {
      assert a + b == b;
    }
  }

  /** The links of a directory do not depend on the order its items come in. */
  lemma {:induction false} RenderedPermutation(x: seq<DirItem>, y: seq<DirItem>)
    requires multiset(x) == multiset(y)
    ensures multiset(RenderedEntries(x)) == multiset(RenderedEntries(y))
    decreases |x|
  {
    if |x| > 0 {
      assert x[0] in multiset(y);
      var k :| 0 <= k < |y| && y[k] == x[0];
      RemoveOne(x, y, k);
      RenderedPermutation(x[1..], y[..k] + y[k + 1..]);
      RenderedAround(y, k);
      RenderedConcat(y[..k], y[k + 1..]);
      RenderedFirst(x);
      MoveToMiddle(RenderedEntries(x[1..]), RenderedEntries(y[..k]), RenderedEntries([x[0]]), RenderedEntries(y[k + 1..]));
    }
  }

  /** The links of a sequence, cut around its item at `k`. */
  lemma RenderedAround(y: seq<DirItem>, k: int)
    requires 0 <= k < |y|
    ensures RenderedEntries(y) == RenderedEntries(y[..k]) + (RenderedEntries([y[k]]) + RenderedEntries(y[k + 1..]))
  {
    var pre, mid, post := y[..k], [y[k]], y[k + 1..];
    calc {
      RenderedEntries(y);
      { assert y == pre + (mid + post); }
      RenderedEntries(pre + (mid + post));
      { RenderedConcat(pre, mid + post); }
      RenderedEntries(pre) + RenderedEntries(mid + post);
      { RenderedConcat(mid, post); }
      RenderedEntries(pre) + (RenderedEntries(mid) + RenderedEntries(post));
    }
  }

  lemma RenderedFirst(x: seq<DirItem>)
    requires 0 < |x|
    ensures RenderedEntries(x) == RenderedEntries([x[0]]) + RenderedEntries(x[1..])
  {
    assert x == [x[0]] + x[1..];
    RenderedConcat([x[0]], x[1..]);
  }

  lemma MoveToMiddle<T>(b: seq<T>, p: seq<T>, o: seq<T>, q: seq<T>)
    requires multiset(b) == multiset(p + q)
    ensures multiset(o + b) == multiset(p + (o + q))
  {
  }

  /** Taking one element out of two permutations of each other leaves
      permutations of each other. */
  lemma RemoveOne<T>(x: seq<T>, y: seq<T>, k: int)
    requires multiset(x) == multiset(y) && 0 < |x| && 0 <= k < |y| && y[k] == x[0]
    ensures multiset(x[1..]) == multiset(y[..k] + y[k + 1..])
  {
    assert y == y[..k] + [y[k]] + y[k + 1..];
    assert x == [x[0]] + x[1..];
    calc {
      multiset(x[1..]);
      multiset(x) - multiset{x[0]};
      multiset(y) - multiset{y[k]};
      multiset(y[..k]) + multiset(y[k + 1..]);
      multiset(y[..k] + y[k + 1..]);
    }
  }

  /** The page is the same whatever order `read_dir` yields the items in. */
  lemma ListingOrderIndependent(path: Path, x: seq<DirItem>, y: seq<DirItem>)
    requires multiset(x) == multiset(y)
    ensures ListingPage(path, x) == ListingPage(path, y)
  {
    RenderedPermutation(x, y);
    SortDependsOnlyOnMultiset(RenderedEntries(x), RenderedEntries(y));
  }

  // ---------------------------------------------------------------------
  // The requested file name
  // ---------------------------------------------------------------------

  /** Pieces that `Components::as_path` trims from the ends of a path. */
  predicate Trimmed(piece: string) {
    piece == "" || piece == "."
  }

  function DropFront(pieces: seq<string>): (r: seq<string>)
    ensures |r| <= |pieces| && r == pieces[|pieces| - |r|..]
    ensures 0 < |r| ==> !Trimmed(r[0])
    decreases |pieces|
  {
    if 0 < |pieces| && Trimmed(pieces[0]) then DropFront(pieces[1..]) else pieces
  }

  function DropBack(pieces: seq<string>): (r: seq<string>)
    ensures |r| <= |pieces| && r == pieces[..|r|]
    ensures 0 < |r| ==> !Trimmed(r[|r| - 1])
    decreases |pieces|
  {
    if 0 < |pieces| && Trimmed(pieces[|pieces| - 1]) then DropBack(pieces[..|pieces| - 1]) else pieces
  }

  /** The text of `req_filename`: `/` asks for `index.html`; otherwise a
      leading `/` is stripped (`strip_prefix`), and with it any empty or
      `.` pieces at either end of what remains; a path without a leading
      `/` is used as it is. */
  function ReqFilename(raw: string): (r: string)
    ensures raw == "/" ==> r == INDEX
    ensures 0 < |raw| && raw[0] == '/' && raw != "/" ==> |r| == 0 || r[0] != '/'
    ensures (|raw| == 0 || raw[0] != '/') ==> r == raw
  {
    if raw == "/" then INDEX
    else if 0 < |raw| && raw[0] == '/' then
      TrimmedJoinHead(Split(raw[1..], '/'));
      Join(DropBack(DropFront(Split(raw[1..], '/'))), "/")
    else raw
  }

  /** Once the empty pieces are trimmed from the front, the joined pieces
      do not begin with the separator. */
  lemma TrimmedJoinHead(pieces: seq<string>)
    requires forall i :: 0 <= i < |pieces| ==> '/' !in pieces[i]
    ensures var j := Join(DropBack(DropFront(pieces)), "/"); |j| == 0 || j[0] != '/'
  {
    var front := DropFront(pieces);
    var xs := DropBack(front);
    if 0 < |xs| {
      assert xs[0] == front[0] == pieces[|pieces| - |front|];
      assert xs[0] != "" && '/' !in xs[0];
      JoinHeadPiece(xs, "/");
      assert Join(xs, "/")[0] == xs[0][0];
    }
  }

  // ---------------------------------------------------------------------
  // handle_connection
  // ---------------------------------------------------------------------

  /** A response, or the worker thread panicking (the `unwrap` on a
      percent-decoded path that is not UTF-8). */
  datatype Outcome = Respond(response: HttpResponse.Response) | Panic

  /** The outcome, and the paths the handler asked the file system about. */
  datatype Handling = Handling(outcome: Outcome, touched: seq<Path>)

  const TRAVERSAL := Custom(PermissionDenied, "Directory traversal is not allowed!")
  const NOT_IMPLEMENTED := HttpStatus.Status(501, "Not Implemented", Some("Server only supports GET and HEAD requests"))
  const INDEX := "index.html"

  /** The tail of `handle_connection` once the contents are known: the
      index fallback, then the response. */
  function Finish(conf: CliConfig.Config, fs: FileSystem, reqName: string, mime: Option<string>,
                  contents: Result<Bytes, IoError>, filename: Path): (h: Handling)
    ensures h.touched == [filename] || h.touched == [filename, conf.base_dir]
    ensures h.outcome.Respond? && h.outcome.response.status.code in {200, 403, 404, 500}
    ensures h.outcome.response.status.code != 200 ==> h.outcome.response.mime == Some(HttpResponse.TEXT_HTML)
    ensures !(conf.list_dir && reqName == INDEX) ==> h.outcome.response.status == HttpStatus.FromIoResult(contents)
    ensures contents.Ok? ==> h.outcome.response.status.code == 200
  {
    if conf.list_dir && contents.Err? && reqName == INDEX then
      var listing := ListDir(fs, conf.base_dir);
      Handling(Respond(HttpResponse.New(HttpStatus.FromIoResult(listing), mime, listing)), [filename, conf.base_dir])
    else
      Handling(Respond(HttpResponse.New(HttpStatus.FromIoResult(contents), mime, contents)), [filename])
  }

  /** The lookup of a path the guard admitted: a directory is listed or
      refused, anything else is read. */
  function Lookup(conf: CliConfig.Config, fs: FileSystem, reqName: string, filename: Path): (h: Handling)
    ensures h.touched == [filename] || h.touched == [filename, conf.base_dir]
  {
    if IsDir(fs, filename) then
      if !conf.list_dir then
        Handling(Respond(HttpResponse.FromIoError(TRAVERSAL)), [filename])
      else
        Finish(conf, fs, reqName, Some(HttpResponse.TEXT_HTML), ListDir(fs, filename), filename)
    else
      Finish(conf, fs, reqName, Mime.GuessMimeType(filename), Read(fs, filename), filename)
  }

  /** `handle_connection`. */
  function HandleConnection(req: Request, conf: CliConfig.Config, fs: FileSystem): (h: Handling)
    ensures Touches(req, conf, h.touched)
  {
    if !(req.verb == "GET" || req.verb == "HEAD") then
      Handling(Respond(HttpResponse.FromStatus(NOT_IMPLEMENTED)), [])
    else
      var reqName := ReqFilename(req.filepath);
      match ProcessPath(reqName, conf.base_dir)
      case None => Handling(Panic, [])
      case Some(filename) =>
        if !IsSub(filename, conf.base_dir) then
          Handling(Respond(HttpResponse.FromIoError(TRAVERSAL)), [])
        else
          Lookup(conf, fs, reqName, filename)
  }

  /** A looked-up path is answered with 200, 403, 404 or 500, and any
      answer but 200 is an HTML error page. */
  lemma LookupAnswers(conf: CliConfig.Config, fs: FileSystem, reqName: string, filename: Path)
    ensures var h := Lookup(conf, fs, reqName, filename);
            h.outcome.Respond? && h.outcome.response.status.code in {200, 403, 404, 500}
            && (h.outcome.response.status.code != 200 ==> h.outcome.response.mime == Some(HttpResponse.TEXT_HTML))
  {
    if IsDir(fs, filename) && !conf.list_dir {
      assert HttpStatus.FromIoError(TRAVERSAL).code == 403;
    }
  }

  /** Every request is answered with 200, 403, 404, 500 or 501 unless the
      worker panics, and any answer but 200 is an HTML error page. */
  lemma Answers(req: Request, conf: CliConfig.Config, fs: FileSystem)
    ensures var h := HandleConnection(req, conf, fs);
            h.outcome.Respond? ==>
              h.outcome.response.status.code in {200, 403, 404, 500, 501}
              && (h.outcome.response.status.code != 200 ==> h.outcome.response.mime == Some(HttpResponse.TEXT_HTML))
  {
    var reqName := ReqFilename(req.filepath);
    if Served(req) && ProcessPath(reqName, conf.base_dir).Some? {
      var filename := ProcessPath(reqName, conf.base_dir).value;
      if IsSub(filename, conf.base_dir) {
        LookupAnswers(conf, fs, reqName, filename);
      }
    }
  }

  /** The path a GET or HEAD request resolves to, if decoding succeeds. */
  function Resolve(req: Request, conf: CliConfig.Config): Option<Path> {
    ProcessPath(ReqFilename(req.filepath), conf.base_dir)
  }

  /** What the handler may ask the file system about: nothing, or the
      path the request resolves to once the guard has admitted it, perhaps
      followed by the served directory. */
  predicate Touches(req: Request, conf: CliConfig.Config, touched: seq<Path>) {
    touched == []
    || (Resolve(req, conf).Some? && IsSub(Resolve(req, conf).value, conf.base_dir)
        && (touched == [Resolve(req, conf).value] || touched == [Resolve(req, conf).value, conf.base_dir]))
  }

  predicate Served(req: Request) {
    req.verb == "GET" || req.verb == "HEAD"
  }

  // ---------------------------------------------------------------------
  // Properties
  // ---------------------------------------------------------------------

  /** Any other method is answered 501 without touching the file system. */
  lemma OtherMethodsNotImplemented(req: Request, conf: CliConfig.Config, fs: FileSystem)
    requires !Served(req)
    ensures var h := HandleConnection(req, conf, fs);
            h.touched == [] && h.outcome.Respond?
            && h.outcome.response.status == NOT_IMPLEMENTED
            && h.outcome.response.mime == Some(HttpResponse.TEXT_HTML)
  {
  }

  /** The worker panics exactly when a served request's path decodes to
      bytes that are not UTF-8. */
  lemma PanicIffUndecodable(req: Request, conf: CliConfig.Config, fs: FileSystem)
    ensures HandleConnection(req, conf, fs).outcome.Panic?
            <==> Served(req) && DecodePercents(ReqFilename(req.filepath)).None?
  {
  }

  /** A path that resolves outside the served directory is refused with 403
      and the traversal message, and nothing is looked up. */
  lemma TraversalRefused(req: Request, conf: CliConfig.Config, fs: FileSystem)
    requires Served(req) && Resolve(req, conf).Some?
    requires !IsSub(Resolve(req, conf).value, conf.base_dir)
    ensures var h := HandleConnection(req, conf, fs);
            h.touched == [] && h.outcome.Respond?
            && h.outcome.response.status == HttpStatus.Status(403, "Forbidden", Some("Directory traversal is not allowed!"))
  {
    assert HandleConnection(req, conf, fs) == Handling(Respond(HttpResponse.FromIoError(TRAVERSAL)), []);
    TraversalStatus();
  }

  /** The status the traversal error maps to. */
  lemma TraversalStatus()
    ensures HttpStatus.FromIoError(TRAVERSAL) == HttpStatus.Status(403, "Forbidden", Some("Directory traversal is not allowed!"))
  {
  }

  /** The handler never asks the file system about anything outside the
      served directory: every path it touches is the served directory or
      lies lexically below it. */
  lemma Confinement(req: Request, conf: CliConfig.Config, fs: FileSystem)
    requires WellFormed(conf.base_dir)
    ensures forall p :: p in HandleConnection(req, conf, fs).touched ==> Confined(p, conf.base_dir)
  {
    TouchesConfined(req, conf, HandleConnection(req, conf, fs).touched);
  }

  /** What `Touches` allows lies in the served directory. */
  lemma TouchesConfined(req: Request, conf: CliConfig.Config, touched: seq<Path>)
    requires WellFormed(conf.base_dir) && Touches(req, conf, touched)
    ensures forall p :: p in touched ==> Confined(p, conf.base_dir)
  {
    var base := conf.base_dir;
    assert Confined(base, base) by {
      assert base.parts[..|base.parts|] == base.parts;
    }
    if touched != [] {
      var f := Resolve(req, conf).value;
      GuardedIsConfined(ReqFilename(req.filepath), base);
      assert touched == [f] || touched == [f, base];
    }
  }

  /** A regular file inside the served directory is sent as it is, with the
      type its extension names. */
  lemma ServesFile(req: Request, conf: CliConfig.Config, fs: FileSystem)
    requires Served(req) && Resolve(req, conf).Some?
    requires var f := Resolve(req, conf).value; IsSub(f, conf.base_dir) && f in fs && fs[f].File?
    ensures var f := Resolve(req, conf).value;
            HandleConnection(req, conf, fs).outcome
            == Respond(HttpResponse.Response(HttpStatus.Status(200, "OK", None), Mime.GuessMimeType(f), fs[f].data))
  {
    Admits(req, conf, fs);
    LookupReads(conf, fs, ReqFilename(req.filepath), Resolve(req, conf).value);
  }

  /** A request the guard admits is answered by looking its path up. */
  lemma Admits(req: Request, conf: CliConfig.Config, fs: FileSystem)
    requires Served(req) && Resolve(req, conf).Some? && IsSub(Resolve(req, conf).value, conf.base_dir)
    ensures HandleConnection(req, conf, fs) == Lookup(conf, fs, ReqFilename(req.filepath), Resolve(req, conf).value)
  {
  }

  /** The lookup of a regular file sends its bytes with status 200. */
  lemma LookupReads(conf: CliConfig.Config, fs: FileSystem, reqName: string, f: Path)
    requires f in fs && fs[f].File?
    ensures Lookup(conf, fs, reqName, f).outcome
            == Respond(HttpResponse.Response(HttpStatus.Status(200, "OK", None), Mime.GuessMimeType(f), fs[f].data))
  {
    assert !IsDir(fs, f) && Read(fs, f) == Ok(fs[f].data);
  }

  /** A directory is refused with 403 when listings are off. */
  lemma DirectoryRefusedWithoutListing(req: Request, conf: CliConfig.Config, fs: FileSystem)
    requires Served(req) && Resolve(req, conf).Some? && !conf.list_dir
    requires var f := Resolve(req, conf).value; IsSub(f, conf.base_dir) && IsDir(fs, f)
    ensures var h := HandleConnection(req, conf, fs);
            h.outcome.Respond? && h.outcome.response.status.code == 403
  {
    Admits(req, conf, fs);
  }

  /** A directory is listed as an HTML page when listings are on. */
  lemma DirectoryListed(req: Request, conf: CliConfig.Config, fs: FileSystem)
    requires Served(req) && Resolve(req, conf).Some? && conf.list_dir
    requires var f := Resolve(req, conf).value; IsSub(f, conf.base_dir) && IsDir(fs, f)
    ensures var f := Resolve(req, conf).value;
            var h := HandleConnection(req, conf, fs);
            h.outcome.Respond? && h.outcome.response.status.code == 200
            && h.outcome.response.mime == Some(HttpResponse.TEXT_HTML)
            && Utf8.Decode(h.outcome.response.body) == Some(ListingPage(f, fs[f].items))
  {
    var f := Resolve(req, conf).value;
    Admits(req, conf, fs);
    LookupLists(conf, fs, ReqFilename(req.filepath), f);
  }

  /** The lookup of a directory with listings on yields its listing page. */
  lemma LookupLists(conf: CliConfig.Config, fs: FileSystem, reqName: string, f: Path)
    requires conf.list_dir && IsDir(fs, f)
    ensures var h := Lookup(conf, fs, reqName, f);
            h.outcome.Respond? && h.outcome.response.status.code == 200
            && h.outcome.response.mime == Some(HttpResponse.TEXT_HTML)
            && Utf8.Decode(h.outcome.response.body) == Some(ListingPage(f, fs[f].items))
  {
    assert ListDir(fs, f).Ok?;
  }

  /** A missing file is 404, unless it is the `index.html` that falls back
      to a listing. */
  lemma MissingFileNotFound(req: Request, conf: CliConfig.Config, fs: FileSystem)
    requires Served(req) && Resolve(req, conf).Some?
    requires var f := Resolve(req, conf).value; IsSub(f, conf.base_dir) && f !in fs
    requires !conf.list_dir || ReqFilename(req.filepath) != INDEX
    ensures var h := HandleConnection(req, conf, fs);
            h.outcome.Respond? && h.outcome.response.status == HttpStatus.Status(404, "Not Found", None)
  {
    Admits(req, conf, fs);
    LookupMissing(conf, fs, ReqFilename(req.filepath), Resolve(req, conf).value);
  }

  /** The lookup of a missing path is 404, outside the index fallback. */
  lemma LookupMissing(conf: CliConfig.Config, fs: FileSystem, reqName: string, f: Path)
    requires f !in fs && (!conf.list_dir || reqName != INDEX)
    ensures var h := Lookup(conf, fs, reqName, f);
            h.outcome.Respond? && h.outcome.response.status == HttpStatus.Status(404, "Not Found", None)
  {
    assert !IsDir(fs, f) && Read(fs, f) == Err(NOT_FOUND);
  }

  /** A file that exists but cannot be read is answered with the status its
      error maps to, as an HTML page, unless it is the `index.html` that
      falls back to a listing. */
  lemma UnreadableFileRefused(req: Request, conf: CliConfig.Config, fs: FileSystem)
    requires Served(req) && Resolve(req, conf).Some?
    requires var f := Resolve(req, conf).value; IsSub(f, conf.base_dir) && f in fs && fs[f].Broken?
    requires !conf.list_dir || ReqFilename(req.filepath) != INDEX
    ensures var f := Resolve(req, conf).value;
            var h := HandleConnection(req, conf, fs);
            h.outcome.Respond? && h.outcome.response.status == HttpStatus.FromIoError(fs[f].error)
            && h.outcome.response.mime == Some(HttpResponse.TEXT_HTML)
  {
    Admits(req, conf, fs);
    LookupFails(conf, fs, ReqFilename(req.filepath), Resolve(req, conf).value);
  }

  /** The lookup of an unreadable path answers with its error's status,
      outside the index fallback. */
  lemma LookupFails(conf: CliConfig.Config, fs: FileSystem, reqName: string, f: Path)
    requires f in fs && fs[f].Broken? && (!conf.list_dir || reqName != INDEX)
    ensures var h := Lookup(conf, fs, reqName, f);
            h.outcome.Respond? && h.outcome.response.status == HttpStatus.FromIoError(fs[f].error)
            && h.outcome.response.mime == Some(HttpResponse.TEXT_HTML)
  {
    assert !IsDir(fs, f) && Read(fs, f) == Err(fs[f].error);
  }

  /** A single valid name parses to a one-component relative path. */
  lemma ParseName(name: string)
    requires ValidName(name)
    ensures ParsePath(name) == Path(false, [Normal(name)])
  {
    var p := Path(false, [Normal(name)]);
    assert PartTexts(p.parts) == [name];
    assert PathText(p) == name;
    ParsePathText(p);
  }

  /** A name joined onto a normalized directory and normalized again is
      simply appended to it. */
  lemma AppendName(base: Path, name: string)
    requires Normalized(base) && ValidName(name)
    ensures Normalize(JoinPath(base, Path(false, [Normal(name)]))) == Path(base.root, base.parts + [Normal(name)])
  {
    var q := Path(false, [Normal(name)]);
    var j := JoinPath(base, q);
    var names := Names(base.parts);
    assert Normals(names) == base.parts;
    JoinedNameWalk(base, name);
    NormalizeParts(j);
    NormalsAppend(names, name);
  }

  /** Walking a name joined onto a normalized directory keeps the
      directory's names and then the name. */
  lemma JoinedNameWalk(base: Path, name: string)
    requires Normalized(base) && ValidName(name)
    ensures var j := JoinPath(base, Path(false, [Normal(name)]));
            j.root == base.root && Walk(j.parts) == Names(base.parts) + [name]
  {
    var q := Path(false, [Normal(name)]);
    var names := Names(base.parts);
    assert Normals(names) == base.parts;
    NameWalk(name);
    if base == Path(false, []) {
      assert JoinPath(base, q) == q;
      assert names == [];
    } else {
      assert JoinPath(base, q).parts == Normals(names) + q.parts;
      WalkExtends(names, q.parts);
    }
  }

  /** A single name walks to itself. */
  lemma NameWalk(name: string)
    ensures Walk([Normal(name)]) == [name]
  {
    assert Normals([name]) == [Normal(name)];
    WalkNormals([name]);
  }

  /** Normalizing keeps the root and the walked names. */
  lemma NormalizeParts(p: Path)
    ensures Normalize(p) == Path(p.root, Normals(Walk(p.parts)))
  {
  }

  /** Appending a name appends its component. */
  lemma NormalsAppend(names: seq<string>, name: string)
    ensures Normals(names + [name]) == Normals(names) + [Normal(name)]
  {
  }

  /** A name as a client percent-encodes it is looked up as the name
      itself, directly inside the served directory. */
  lemma EncodedNameResolves(base: Path, name: string, p: string)
    requires Normalized(base) && ValidName(name)
    requires Utf8.Encode(p) == PercentEncode(Utf8.Encode(name))
    ensures ProcessPath(p, base) == Some(Path(base.root, base.parts + [Normal(name)]))
  {
    DecodePercentsShortcut(p);
    DecodeBytesOfPercentEncode(Utf8.Encode(name));
    Utf8.DecodeEncode(name);
    assert DecodePercents(p) == Some(name);
    ParseName(name);
    AppendName(base, name);
  }

  /** The request text a client sends for a name, fully percent-encoded,
      resolves to that name inside the served directory. */
  lemma EncodedRequestResolves(base: Path, name: string)
    requires Normalized(base) && ValidName(name)
    ensures ProcessPath(Utf8.AsciiText(PercentEncode(Utf8.Encode(name))), base)
            == Some(Path(base.root, base.parts + [Normal(name)]))
  {
    Utf8.EncodeAsciiText(PercentEncode(Utf8.Encode(name)));
    EncodedNameResolves(base, name, Utf8.AsciiText(PercentEncode(Utf8.Encode(name))));
  }

  /** A plain name (no `%`) is looked up directly inside the served
      directory, and the guard admits it. */
  lemma NameResolves(base: Path, name: string)
    requires Normalized(base) && ValidName(name) && '%' !in name
    ensures ProcessPath(name, base) == Some(Path(base.root, base.parts + [Normal(name)]))
    ensures IsSub(Path(base.root, base.parts + [Normal(name)]), base)
  {
    DecodePercentsShortcut(name);
    ParseName(name);
    var q := Path(false, [Normal(name)]);
    GuardAdmitsDescent(base, q);
    AppendName(base, name);
  }

  /** `/` resolves to `index.html` directly inside the served directory. */
  lemma RootRequestResolvesToIndex(verb: string, conf: CliConfig.Config)
    requires Normalized(conf.base_dir)
    ensures var f := Resolve(Request(verb, "/"), conf);
            f == Some(Path(conf.base_dir.root, conf.base_dir.parts + [Normal(INDEX)]))
            && IsSub(f.value, conf.base_dir)
  {
    assert ReqFilename("/") == INDEX;
    assert ValidName(INDEX) && '%' !in INDEX;
    NameResolves(conf.base_dir, INDEX);
  }

  /** The handler sees the request path only through `req_filename`: two
      paths with the same file name are answered alike. */
  lemma SameFilenameSameHandling(verb: string, a: string, b: string, conf: CliConfig.Config, fs: FileSystem)
    requires ReqFilename(a) == ReqFilename(b)
    ensures HandleConnection(Request(verb, a), conf, fs) == HandleConnection(Request(verb, b), conf, fs)
  {
    assert Resolve(Request(verb, a), conf) == Resolve(Request(verb, b), conf);
  }

  /** Stripping the leading `/` of a request path: the pieces between the
      slashes are kept, provided the first and last are not empty or `.`. */
  lemma ReqFilenameStripsSlash(names: seq<string>)
    requires 1 <= |names|
    requires forall i :: 0 <= i < |names| ==> '/' !in names[i]
    requires !Trimmed(names[0]) && !Trimmed(names[|names| - 1])
    ensures ReqFilename("/" + Join(names, "/")) == Join(names, "/")
  {
    var j := Join(names, "/");
    SplitJoin(names, '/');
    assert DropFront(names) == names;
    assert DropBack(names) == names;
    JoinHeadPiece(names, "/");
    assert ("/" + j)[1..] == j;
    assert "/" + j != "/";
  }

  /** In general `as_path` drops the empty and `.` pieces at both ends of
      the stripped path and keeps the rest: `/a/` asks for `a`, `/./a/b/.`
      for `a/b`. */
  lemma ReqFilenameTrimsEnds(pre: seq<string>, names: seq<string>, post: seq<string>)
    requires 1 <= |names|
    requires forall i :: 0 <= i < |names| ==> '/' !in names[i]
    requires !Trimmed(names[0]) && !Trimmed(names[|names| - 1])
    requires forall i :: 0 <= i < |pre| ==> Trimmed(pre[i])
    requires forall i :: 0 <= i < |post| ==> Trimmed(post[i])
    ensures ReqFilename("/" + Join(pre + names + post, "/")) == Join(names, "/")
  {
    var rest := names + post;
    var xs := pre + rest;
    assert xs == pre + names + post;
    var j := Join(xs, "/");
    TrimmedAroundSlashFree(pre, names, post);
    SplitJoin(xs, '/');
    JoinNonEmpty(xs, |pre|);
    ReqFilenameOfSlashed(j);
    DropFrontTrimmed(pre, rest);
    DropBackTrimmed(names, post);
  }

  /** A join with a non-empty piece is not empty. */
  lemma JoinNonEmpty(xs: seq<string>, i: nat)
    requires i < |xs| && xs[i] != ""
    ensures Join(xs, "/") != ""
  {
    JoinContainsPiece(xs, "/", i);
    var k :| OccursAt(Join(xs, "/"), xs[i], k);
  }

  /** A trailing `/` is dropped: `/name/` asks for `name`. */
  lemma TrailingSlashDropped(name: string)
    requires ValidName(name)
    ensures ReqFilename("/" + name + "/") == name
  {
    var xs: seq<string> := [name, ""];
    assert Join(xs, "/") == name + "/" + Join(xs[1..], "/");
    assert xs[1..] == [""];
    assert [] + [name] + [""] == xs;
    assert "/" + name + "/" == "/" + Join(xs, "/");
    ReqFilenameTrimsEnds([], [name], [""]);
  }

  /** Pieces kept between trimmed pieces hold no separator. */
  lemma TrimmedAroundSlashFree(pre: seq<string>, names: seq<string>, post: seq<string>)
    requires forall i :: 0 <= i < |names| ==> '/' !in names[i]
    requires forall i :: 0 <= i < |pre| ==> Trimmed(pre[i])
    requires forall i :: 0 <= i < |post| ==> Trimmed(post[i])
    ensures var xs := pre + names + post; forall i :: 0 <= i < |xs| ==> '/' !in xs[i]
  {
    var xs := pre + names + post;
    forall i | 0 <= i < |xs| ensures '/' !in xs[i] {
      if i < |pre| { assert xs[i] == pre[i]; }
      else if i < |pre| + |names| { assert xs[i] == names[i - |pre|]; }
      else { assert xs[i] == post[i - |pre| - |names|]; }
    }
  }

  /** A request path `/t` with some text `t` asks for the trimmed pieces of
      `t`. */
  lemma ReqFilenameOfSlashed(t: string)
    requires t != ""
    ensures ReqFilename("/" + t) == Join(DropBack(DropFront(Split(t, '/'))), "/")
  {
    assert ("/" + t)[1..] == t;
  }

  /** Trimmed pieces before the first kept piece are dropped. */
  lemma {:induction false} DropFrontTrimmed(pre: seq<string>, rest: seq<string>)
    requires forall i :: 0 <= i < |pre| ==> Trimmed(pre[i])
    requires 0 < |rest| && !Trimmed(rest[0])
    ensures DropFront(pre + rest) == rest
    decreases |pre|
  {
    if |pre| == 0 {
      assert pre + rest == rest;
    } else {
      assert (pre + rest)[1..] == pre[1..] + rest;
      DropFrontTrimmed(pre[1..], rest);
    }
  }

  /** Trimmed pieces after the last kept piece are dropped. */
  lemma {:induction false} DropBackTrimmed(rest: seq<string>, post: seq<string>)
    requires forall i :: 0 <= i < |post| ==> Trimmed(post[i])
    requires 0 < |rest| && !Trimmed(rest[|rest| - 1])
    ensures DropBack(rest + post) == rest
    decreases |post|
  {
    if |post| == 0 {
      assert rest + post == rest;
    } else {
      var n := |rest + post|;
      assert (rest + post)[..n - 1] == rest + post[..|post| - 1];
      DropBackTrimmed(rest, post[..|post| - 1]);
    }
  }

  /** The first piece of a join begins it. */
  lemma JoinHeadPiece(xs: seq<string>, sep: string)
    requires 1 <= |xs|
    ensures StartsWith(Join(xs, sep), xs[0])
  {
    if |xs| > 1 {
      assert Join(xs, sep) == xs[0] + (sep + Join(xs[1..], sep));
    }
  }

  /** `/name` asks for `name`; in particular `/index.html` asks for the
      same file as `/`. */
  lemma SlashNameRequest(name: string)
    requires ValidName(name)
    ensures ReqFilename("/" + name) == name
  {
    ReqFilenameStripsSlash([name]);
    assert Join([name], "/") == name;
  }

  /** With listings on, a request for `/` that finds no readable
      `index.html` shows the listing of the served directory itself (and
      `/index.html` is answered the same way, by `SlashNameRequest` and
      `SameFilenameSameHandling`). */
  lemma IndexFallsBackToListing(verb: string, conf: CliConfig.Config, fs: FileSystem)
    requires verb == "GET" || verb == "HEAD"
    requires Normalized(conf.base_dir)
    requires conf.list_dir && IsDir(fs, conf.base_dir)
    requires var f := Path(conf.base_dir.root, conf.base_dir.parts + [Normal(INDEX)]);
             f !in fs || fs[f].Broken?
    ensures var h := HandleConnection(Request(verb, "/"), conf, fs);
            h.outcome.Respond? && h.outcome.response.status.code == 200
            && Utf8.Decode(h.outcome.response.body) == Some(ListingPage(conf.base_dir, fs[conf.base_dir].items))
  {
    RootRequestResolvesToIndex(verb, conf);
    var f := Path(conf.base_dir.root, conf.base_dir.parts + [Normal(INDEX)]);
    Admits(Request(verb, "/"), conf, fs);
    LookupFallsBack(conf, fs, f);
  }

  /** A request for `index.html` that names no readable file, with listings
      on, is answered with the listing of the served directory. */
  lemma LookupFallsBack(conf: CliConfig.Config, fs: FileSystem, f: Path)
    requires conf.list_dir && IsDir(fs, conf.base_dir)
    requires f !in fs || fs[f].Broken?
    ensures var h := Lookup(conf, fs, INDEX, f);
            h.outcome.Respond? && h.outcome.response.status.code == 200
            && Utf8.Decode(h.outcome.response.body) == Some(ListingPage(conf.base_dir, fs[conf.base_dir].items))
  {
    assert !IsDir(fs, f) && Read(fs, f).Err?;
    assert ListDir(fs, conf.base_dir).Ok?;
  }
}

=== FILE: html.dfy ===
/** The one HTML page template of the server (http/html.rs): a fixed
    document with a title, a heading and one paragraph. Nothing is escaped:
    the three parts are pasted in as they are. */
module Html {
  import opened Text

  const DOCTYPE := "<!DOCTYPE html>"
  const HTML_END := "</html>\n"
  /** The pieces of the template between its three placeholders. */
  const HEAD_OPEN := DOCTYPE + "<html lang=\"en\"><head><meta charset=\"utf-8\">"
  const TITLE_OPEN := "<title>"
  const TITLE_CLOSE := "</title>"
  const BODY_OPEN := "</head><body>"
  const H1_OPEN := "<h1>"
  const H1_CLOSE := "</h1>"
  const P_OPEN := "<p>"
  const P_CLOSE := "</p>"
  const BODY_END := "</body>" + HTML_END
  const DOC_TAIL := P_CLOSE + BODY_END

  function TitleElement(title: string): string {
    TITLE_OPEN + title + TITLE_CLOSE
  }

  function Heading(lead: string): string {
    H1_OPEN + lead + H1_CLOSE
  }

  /** The text of the document before its content paragraph. */
  function Preamble(title: string, lead: string): string {
    HEAD_OPEN + TitleElement(title) + BODY_OPEN + Heading(lead) + P_OPEN
  }

  /** `html_doc(title, lead, content)`. */
  function HtmlDoc(title: string, lead: string, content: string): (r: string)
    ensures StartsWith(r, DOCTYPE) && EndsWith(r, HTML_END)
    ensures |r| == |Preamble(title, lead)| + |content| + |DOC_TAIL|
    ensures r[..|Preamble(title, lead)|] == Preamble(title, lead)
    ensures r[|r| - |DOC_TAIL|..] == DOC_TAIL
  {
    var r := Preamble(title, lead) + content + DOC_TAIL;
    assert r == DOCTYPE + (r[|DOCTYPE|..]);
    assert r == (Preamble(title, lead) + content + "</p></body>") + HTML_END;
    r
  }

  /** Reads the content paragraph back out of a document whose title and
      lead are known. */
  function ContentOf(doc: string, title: string, lead: string): string
    requires |Preamble(title, lead)| + |DOC_TAIL| <= |doc|
  {
    doc[|Preamble(title, lead)|..|doc| - |DOC_TAIL|]
  }

  /** The content can be read back, so two documents with the same title and
      lead differ exactly when their contents do. */
  lemma ContentOfHtmlDoc(title: string, lead: string, content: string)
    ensures ContentOf(HtmlDoc(title, lead, content), title, lead) == content
  {
    var p := Preamble(title, lead);
    assert (p + content + DOC_TAIL)[|p|..|p| + |content|] == content;
  }

  lemma HtmlDocInjective(title: string, lead: string, c1: string, c2: string)
    requires HtmlDoc(title, lead, c1) == HtmlDoc(title, lead, c2)
    ensures c1 == c2
  {
    ContentOfHtmlDoc(title, lead, c1);
    ContentOfHtmlDoc(title, lead, c2);
  }

  /** The page shows its title, heading and paragraph as elements. */
  lemma HtmlDocShowsTitle(title: string, lead: string, content: string)
    ensures Contains(HtmlDoc(title, lead, content), "<title>" + title + "</title>")
  {
    ElementsOccur(HEAD_OPEN, TitleElement(title), BODY_OPEN, Heading(lead), P_OPEN, content, P_CLOSE, BODY_END);
  }

  lemma HtmlDocShowsLead(title: string, lead: string, content: string)
    ensures Contains(HtmlDoc(title, lead, content), "<h1>" + lead + "</h1>")
  {
    ElementsOccur(HEAD_OPEN, TitleElement(title), BODY_OPEN, Heading(lead), P_OPEN, content, P_CLOSE, BODY_END);
  }

  lemma HtmlDocShowsContent(title: string, lead: string, content: string)
    ensures Contains(HtmlDoc(title, lead, content), "<p>" + content + "</p>")
  {
    ElementsOccur(HEAD_OPEN, TitleElement(title), BODY_OPEN, Heading(lead), P_OPEN, content, P_CLOSE, BODY_END);
  }

  /** Where the title, heading and paragraph sit in the document's pieces. */
  lemma ElementsOccur<T>(a: seq<T>, t: seq<T>, b: seq<T>, h: seq<T>, po: seq<T>, c: seq<T>, pc: seq<T>, e: seq<T>)
    ensures var s := a + t + b + h + po + c + (pc + e);
            Contains(s, t) && Contains(s, h) && Contains(s, po + c + pc)
  {
    var s := a + t + b + h + po + c + (pc + e);
    assert OccursAt(s, t, |a|) by {
      assert s[|a|..|a| + |t|] == t;
    }
    var i := |a| + |t| + |b|;
    assert OccursAt(s, h, i) by {
      assert s[i..i + |h|] == h;
    }
    var j := i + |h|;
    var p := po + c + pc;
    assert OccursAt(s, p, j) by {
      assert s[j..j + |p|] == p;
    }
  }
}

=== FILE: http_request.dfy ===
/** Reading a request (http/request.rs): the buffer must be UTF-8, and its
    first two whitespace-separated words are the method and the path; a
    third word (the protocol version) must be present but is not checked. */
module HttpRequest {
  import opened Results
  import opened Text
  import Utf8
  import opened RequestErrors

  datatype Request = Request(verb: string, filepath: string)

  /** A word: non-empty and free of ASCII whitespace. */
  predicate IsWord(w: string) {
    w != [] && forall i :: 0 <= i < |w| ==> !IsAsciiWhitespace(w[i])
  }

  /** Length of the run of non-whitespace characters `s` starts with. */
  function WordLength(s: string): (n: nat)
    ensures n <= |s|
    ensures forall i :: 0 <= i < n ==> !IsAsciiWhitespace(s[i])
    ensures n < |s| ==> IsAsciiWhitespace(s[n])
    decreases |s|
  {
    if |s| == 0 || IsAsciiWhitespace(s[0]) then 0 else 1 + WordLength(s[1..])
  }

  /** `str::split_ascii_whitespace`: the maximal runs of non-whitespace
      characters, in order. */
  function Tokens(s: string): (r: seq<string>)
    ensures forall i :: 0 <= i < |r| ==> IsWord(r[i])
    decreases |s|
  {
    if |s| == 0 then []
    else if IsAsciiWhitespace(s[0]) then Tokens(s[1..])
    else
      var n := WordLength(s);
      [s[..n]] + Tokens(s[n..])
  }

  /** `HTTPRequest::new`. */
  function Parse(buffer: Bytes): (r: Result<Request, RequestError>)
    ensures r == Err(Utf8Error) <==> Utf8.Decode(buffer).None?
    ensures Utf8.Decode(buffer).Some? ==>
      var toks := Tokens(Utf8.Decode(buffer).value);
      && (r == Err(NoMethod) <==> |toks| == 0)
      && (r == Err(NoPath) <==> 1 <= |toks| <= 2)
      && (r.Ok? <==> 3 <= |toks|)
      && (r.Ok? ==> r.value == Request(toks[0], toks[1]))
    ensures r.Ok? ==> IsWord(r.value.verb) && IsWord(r.value.filepath)
  {
    match Utf8.Decode(buffer)
    case None => Err(Utf8Error)
    case Some(text) =>
      var toks := Tokens(text);
      if |toks| == 0 then Err(NoMethod)
      else if |toks| < 3 then Err(NoPath)
      else Ok(Request(toks[0], toks[1]))
  }

  /** `Display`: the request line as the client would have sent it. */
  function Display(req: Request): string {
    req.verb + " " + req.filepath + " " + VERSION_WORD
  }

  lemma {:induction false} TokensOfWord(w: string, rest: string)
    requires IsWord(w)
    requires rest == [] || IsAsciiWhitespace(rest[0])
    ensures Tokens(w + rest) == [w] + Tokens(rest)
  {
    var s := w + rest;
    WordLengthOf(w, rest);
    assert s[..|w|] == w && s[|w|..] == rest;
  }

  lemma {:induction false} WordLengthOf(w: string, rest: string)
    requires forall i :: 0 <= i < |w| ==> !IsAsciiWhitespace(w[i])
    requires rest == [] || IsAsciiWhitespace(rest[0])
    ensures WordLength(w + rest) == |w|
    decreases |w|
  {
    if |w| > 0 {
      assert (w + rest)[1..] == w[1..] + rest;
      WordLengthOf(w[1..], rest);
    } else {
      assert w + rest == rest;
    }
  }

  lemma TokensSkipWhitespace(c: char, s: string)
    requires IsAsciiWhitespace(c)
    ensures Tokens([c] + s) == Tokens(s)
  {
    assert ([c] + s)[1..] == s;
  }

  /** Words joined by a whitespace character split back into the same words. */
  lemma {:induction false} TokensOfJoin(ws: seq<string>, c: char)
    requires IsAsciiWhitespace(c)
    requires forall i :: 0 <= i < |ws| ==> IsWord(ws[i])
    ensures Tokens(Join(ws, [c])) == ws
    decreases |ws|
  {
    if |ws| == 1 {
      TokensOfWord(ws[0], "");
      assert ws[0] + "" == ws[0];
    } else if |ws| > 1 {
      var rest := Join(ws[1..], [c]);
      assert Join(ws, [c]) == ws[0] + ([c] + rest);
      TokensOfWord(ws[0], [c] + rest);
      TokensSkipWhitespace(c, rest);
      TokensOfJoin(ws[1..], c);
      assert [ws[0]] + ws[1..] == ws;
    }
  }

  const VERSION_WORD := "HTTP/1.1"

  /** A request line written by `Display` reads back as the same request,
      provided method and path are words. */
  lemma ParseDisplay(req: Request)
    requires IsWord(req.verb) && IsWord(req.filepath)
    ensures Parse(Utf8.Encode(Display(req))) == Ok(req)
  {
    var ws := [req.verb, req.filepath, VERSION_WORD];
    assert IsWord(VERSION_WORD);
    assert Join(ws, " ") == Display(req) by {
      assert ws[1..][1..] == [VERSION_WORD];
      assert Join(ws[1..], " ") == req.filepath + " " + VERSION_WORD;
    }
    TokensOfJoin(ws, ' ');
    Utf8.DecodeEncode(Display(req));
  }

  /** The words are taken from the whole buffer, not only its first line:
      a method, path and version on lines of their own still parse. */
  lemma LinesNotDistinguished(verb: string, path: string)
    requires IsWord(verb) && IsWord(path)
    ensures Parse(Utf8.Encode(verb + "\n" + path + "\n" + VERSION_WORD)) == Ok(Request(verb, path))
  {
    var ws := [verb, path, VERSION_WORD];
    var text := verb + "\n" + path + "\n" + VERSION_WORD;
    assert IsWord(VERSION_WORD);
    assert Join(ws, "\n") == text by {
      assert ws[1..][1..] == [VERSION_WORD];
      assert Join(ws[1..], "\n") == path + "\n" + VERSION_WORD;
    }
    TokensOfJoin(ws, '\n');
    Utf8.DecodeEncode(text);
  }

  /** A buffer that breaks off inside a multi-byte character (a four-byte
      emoji with its lead byte replaced by NUL) is refused as not UTF-8. */
  lemma BrokenUtf8Refused()
    ensures Parse([0, 159, 146, 150]) == Err(Utf8Error)
  {
    var b: Bytes := [0, 159, 146, 150];
    assert b[1..] == [159, 146, 150];
    assert Utf8.DecodeFirst(b[1..]).None?;
    assert Utf8.Decode(b[1..]).None?;
  }
}

=== FILE: http_response.dfy ===
/** HTTP responses (http/response.rs): a status, an optional media type and
    a body, written to the connection as a header followed by the body. */
module HttpResponse {
  import opened Results
  import opened Text
  import opened IoErrors
  import Utf8
  import HttpStatus

  datatype Response = Response(status: HttpStatus.Status, mime: Option<string>, body: Bytes)

  const TEXT_HTML := "text/html"

  /** The error page of a status as the bytes of a body. */
  function ErrorPage(s: HttpStatus.Status): Bytes {
    Utf8.Encode(HttpStatus.ToHtml(s))
  }

  /** `HTTPResponse::new`: a body that could be produced is sent with the
      given type; an error is replaced by the status's HTML page. */
  function New(status: HttpStatus.Status, mime: Option<string>, body: Result<Bytes, IoError>): (r: Response)
    ensures r.status == status
    ensures body.Ok? ==> r.mime == mime && r.body == body.value
    ensures body.Err? ==> r.mime == Some(TEXT_HTML) && Utf8.Decode(r.body) == Some(HttpStatus.ToHtml(status))
  {
    match body
    case Ok(b) => Response(status, mime, b)
    case Err(_) =>
      Utf8.DecodeEncode(HttpStatus.ToHtml(status));
      Response(status, Some(TEXT_HTML), ErrorPage(status))
  }

  /** `From<HTTPStatus>`: the status with its HTML page. */
  function FromStatus(s: HttpStatus.Status): (r: Response)
    ensures r.status == s && r.mime == Some(TEXT_HTML)
    ensures Utf8.Decode(r.body) == Some(HttpStatus.ToHtml(s))
  {
    Utf8.DecodeEncode(HttpStatus.ToHtml(s));
    Response(s, Some(TEXT_HTML), ErrorPage(s))
  }

  /** `From<io::Error>`: the status the error maps to, with its page. */
  function FromIoError(e: IoError): (r: Response)
    ensures r.status == HttpStatus.FromIoError(e)
    ensures r.status.code in {403, 404, 500}
    ensures r.mime == Some(TEXT_HTML)
  {
    FromStatus(HttpStatus.FromIoError(e))
  }

  /** Both ways of answering with an error agree: a failed body given to
      `new` yields the same response as converting the status directly, and
      the media type passed along is ignored. */
  lemma NewOfErrorIsFromStatus(s: HttpStatus.Status, mime: Option<string>, e: IoError)
    ensures New(s, mime, Err(e)) == FromStatus(s)
  {
  }

  lemma FromIoErrorIsNew(e: IoError, mime: Option<string>)
    ensures FromIoError(e) == New(HttpStatus.FromIoError(e), mime, Err(e))
  {
  }

  // ---------------------------------------------------------------------
  // Header
  // ---------------------------------------------------------------------

  const CRLF := "\r\n"
  const LENGTH_NAME := "Content-Length"
  const TYPE_NAME := "Content-Type"
  const CLOSE_NAME := "Connection"
  const LENGTH_KEY := LENGTH_NAME + ": "
  const TYPE_KEY := TYPE_NAME + ": "
  const CLOSE_LINE := CLOSE_NAME + ": close"

  function LengthLine(r: Response): string {
    LENGTH_KEY + NatToString(|r.body|)
  }

  function TypeLine(t: string): string {
    TYPE_KEY + t
  }

  /** The `Content-Type` line of the header, present only with a media type. */
  function TypeField(mime: Option<string>): string {
    match mime
    case Some(t) => TypeLine(t) + CRLF
    case None => ""
  }

  /** The text of `header()`. */
  function HeaderText(r: Response): string {
    HttpStatus.StatusLine(r.status) + CRLF + LengthLine(r) + CRLF + TypeField(r.mime) + CLOSE_LINE + CRLF + CRLF
  }

  /** `header()`: the header text as bytes. */
  function Header(r: Response): (h: Bytes)
    ensures |HeaderText(r)| <= |h|
    ensures Utf8.Decode(h) == Some(HeaderText(r))
  {
    Utf8.DecodeEncode(HeaderText(r));
    Utf8.Encode(HeaderText(r))
  }

  /** `into_bytes()`: the header, then the body. */
  function IntoBytes(r: Response): (b: Bytes)
    ensures |r.body| <= |b|
    ensures Utf8.Decode(b[..|b| - |r.body|]) == Some(HeaderText(r))
    ensures b[|b| - |r.body|..] == r.body
  {
    var h := Header(r);
    assert (h + r.body)[..|h|] == h;
    h + r.body
  }

  /** The lines of the header as a client sees them, ending with the empty
      line that separates it from the body. */
  function HeaderLines(r: Response): seq<string> {
    var sl := HttpStatus.StatusLine(r.status);
    match r.mime
    case Some(t) => [sl, LengthLine(r), TypeLine(t), CLOSE_LINE, ""]
    case None => [sl, LengthLine(r), CLOSE_LINE, ""]
  }

  /** A client's reading of a header: lines separated by CRLF, the last
      line empty. None when the text is not of that shape. */
  function ParseHeader(text: string): (r: Option<seq<string>>)
    ensures r.Some? ==> 1 <= |r.value|
  {
    var pieces := Split(text, '\n');
    if |pieces| < 2 || pieces[|pieces| - 1] != "" then None
    else if exists i :: 0 <= i < |pieces| - 1 && !EndsWith(pieces[i], "\r") then None
    else Some(seq(|pieces| - 1, i requires 0 <= i < |pieces| - 1 => pieces[i][..|pieces[i]| - 1]))
  }

  /** Each line followed by CR, as written on the wire. */
  function WithCr(lines: seq<string>): (r: seq<string>)
    ensures |r| == |lines|
    ensures forall i :: 0 <= i < |r| ==> r[i] == lines[i] + "\r"
  {
    seq(|lines|, i requires 0 <= i < |lines| => lines[i] + "\r")
  }

  lemma JoinCons(x: string, xs: seq<string>, sep: string)
    requires 1 <= |xs|
    ensures Join([x] + xs, sep) == x + sep + Join(xs, sep)
  {
    assert ([x] + xs)[1..] == xs;
  }

  /** The lines from the `i`-th on, each terminated by CRLF. */
  function CrlfFrom(lines: seq<string>, i: nat): string
    decreases |lines| - i
  {
    if i >= |lines| then "" else lines[i] + CRLF + CrlfFrom(lines, i + 1)
  }

  function CrlfText(lines: seq<string>): string {
    CrlfFrom(lines, 0)
  }

  lemma {:induction false} CrlfFromIsJoin(lines: seq<string>, i: nat)
    requires i <= |lines|
    ensures CrlfFrom(lines, i) == Join(WithCr(lines[i..]) + [""], "\n")
    decreases |lines| - i
  {
    if i < |lines| {
      CrlfFromIsJoin(lines, i + 1);
      var rest := WithCr(lines[i + 1..]) + [""];
      assert WithCr(lines[i..]) + [""] == [lines[i] + "\r"] + rest;
      JoinCons(lines[i] + "\r", rest, "\n");
      assert lines[i] + "\r" + "\n" == lines[i] + CRLF;
    } else {
      assert WithCr(lines[i..]) + [""] == [""];
    }
  }

  /** The header is its lines, each ended by CRLF; the last line is empty. */
  lemma HeaderTextIsCrlf(r: Response)
    ensures HeaderText(r) == CrlfText(HeaderLines(r))
  {
    var ls := HeaderLines(r);
    var sl, ln := HttpStatus.StatusLine(r.status), LengthLine(r);
    var n := |ls|;
    assert CrlfFrom(ls, n) == "";
    assert CrlfFrom(ls, n - 1) == "" + CRLF + "";
    assert CrlfFrom(ls, n - 2) == CLOSE_LINE + CRLF + ("" + CRLF + "");
    var tail := CrlfFrom(ls, n - 2);
    if r.mime.Some? {
      assert CrlfFrom(ls, 2) == TypeLine(r.mime.value) + CRLF + tail;
    }
    assert CrlfFrom(ls, 2) == TypeField(r.mime) + tail;
    assert CrlfFrom(ls, 1) == ln + CRLF + CrlfFrom(ls, 2);
    Regroup(sl, ln, TypeField(r.mime));
  }

  lemma Regroup(sl: string, ln: string, tf: string)
    ensures sl + CRLF + (ln + CRLF + (tf + (CLOSE_LINE + CRLF + ("" + CRLF + ""))))
         == sl + CRLF + ln + CRLF + tf + CLOSE_LINE + CRLF + CRLF
  {
  }

  lemma HeaderTextIsJoin(r: Response)
    ensures HeaderText(r) == Join(WithCr(HeaderLines(r)) + [""], "\n")
  {
    HeaderTextIsCrlf(r);
    CrlfFromIsJoin(HeaderLines(r), 0);
    assert HeaderLines(r)[0..] == HeaderLines(r);
  }

  lemma DigitsHaveNoNewline(s: string)
    requires AllDigits(s)
    ensures '\n' !in s
  {
    forall i | 0 <= i < |s| ensures s[i] != '\n' {
      assert IsDigit(s[i]);
    }
  }

  /** Lines without line breaks, written one per CRLF, are read back by a
      client exactly. */
  lemma ParseCrlfText(ls: seq<string>)
    requires 1 <= |ls|
    requires forall i :: 0 <= i < |ls| ==> '\n' !in ls[i]
    ensures ParseHeader(CrlfText(ls)) == Some(ls)
  {
    var w := WithCr(ls) + [""];
    assert forall i :: 0 <= i < |w| ==> '\n' !in w[i] by {
      forall i | 0 <= i < |w| ensures '\n' !in w[i] {
        if i < |ls| {
          assert w[i] == ls[i] + "\r";
        }
      }
    }
    CrlfFromIsJoin(ls, 0);
    assert ls[0..] == ls;
    SplitJoin(w, '\n');
    var pieces := Split(CrlfText(ls), '\n');
    assert pieces == w;
    forall i | 0 <= i < |w| - 1
      ensures EndsWith(w[i], "\r") && w[i][..|w[i]| - 1] == ls[i]
    {
      assert w[i] == ls[i] + "\r";
    }
    var lines := seq(|w| - 1, i requires 0 <= i < |w| - 1 => w[i][..|w[i]| - 1]);
    assert lines == ls;
  }

  /** Without line breaks in the reason phrase and the media type, a client
      reads the header back line by line exactly as it was built. */
  lemma ParseHeaderText(r: Response)
    requires '\n' !in r.status.msg
    requires r.mime.Some? ==> '\n' !in r.mime.value
    ensures ParseHeader(HeaderText(r)) == Some(HeaderLines(r))
  {
    var ls := HeaderLines(r);
    DigitsHaveNoNewline(NatToString(r.status.code));
    DigitsHaveNoNewline(NatToString(|r.body|));
    assert '\n' !in HttpStatus.StatusLine(r.status);
    assert '\n' !in LengthLine(r);
    assert forall i :: 0 <= i < |ls| ==> '\n' !in ls[i];
    HeaderTextIsCrlf(r);
    ParseCrlfText(ls);
  }

  /** The value of the first header field called `name`, past the status line. */
  function FieldValue(lines: seq<string>, name: string): (v: Option<string>)
    ensures v.Some? ==> exists i :: 1 <= i < |lines| && lines[i] == name + ": " + v.value
  {
    FieldFrom(lines, name, 1)
  }

  function FieldFrom(lines: seq<string>, name: string, i: nat): (v: Option<string>)
    ensures v.Some? ==> exists j :: i <= j < |lines| && lines[j] == name + ": " + v.value
    decreases |lines| - i
  {
    if i >= |lines| then None
    else
      var key := name + ": ";
      if StartsWith(lines[i], key) then
        assert lines[i] == key + lines[i][|key|..];
        Some(lines[i][|key|..])
      else FieldFrom(lines, name, i + 1)
  }

  lemma FieldSkip(lines: seq<string>, name: string, i: nat)
    requires i < |lines| && !StartsWith(lines[i], name + ": ")
    ensures FieldFrom(lines, name, i) == FieldFrom(lines, name, i + 1)
  {
  }

  lemma FieldHit(lines: seq<string>, name: string, i: nat, v: string)
    requires i < |lines| && lines[i] == name + ": " + v
    ensures FieldFrom(lines, name, i) == Some(v)
  {
    var key := name + ": ";
    assert lines[i][..|key|] == key;
    assert lines[i][|key|..] == v;
  }

  /** Which field a header line starts, judged by one character. */
  lemma FieldNamesDiffer(line: string, v: string)
    ensures line == LENGTH_KEY + v ==> !StartsWith(line, TYPE_KEY) && !StartsWith(line, CLOSE_NAME + ": ")
    ensures line == TYPE_KEY + v ==> !StartsWith(line, LENGTH_KEY) && !StartsWith(line, CLOSE_NAME + ": ")
    ensures line == CLOSE_NAME + ": " + v ==> !StartsWith(line, LENGTH_KEY) && !StartsWith(line, TYPE_KEY)
  {
    if line == LENGTH_KEY + v {
      assert line[8] == 'L' && line[3] == 't';
    }
    if line == TYPE_KEY + v {
      assert line[8] == 'T' && line[3] == 't';
    }
    if line == CLOSE_NAME + ": " + v {
      assert line[3] == 'n' && |line| >= 12;
    }
  }

  /** The header announces the exact length of the body, the media type
      when there is one (and no `Content-Type` field otherwise), and that
      the connection closes. */
  lemma HeaderFields(r: Response)
    ensures FieldValue(HeaderLines(r), "Content-Length") == Some(NatToString(|r.body|))
    ensures FieldValue(HeaderLines(r), "Content-Type") == r.mime
    ensures FieldValue(HeaderLines(r), "Connection") == Some("close")
  {
    LengthFieldFirst(r);
    TypeFieldPresent(r);
    CloseFieldLast(r);
  }

  lemma LengthFieldFirst(r: Response)
    ensures FieldValue(HeaderLines(r), LENGTH_NAME) == Some(NatToString(|r.body|))
  {
    FieldHit(HeaderLines(r), LENGTH_NAME, 1, NatToString(|r.body|));
  }

  lemma TypeFieldPresent(r: Response)
    ensures FieldValue(HeaderLines(r), TYPE_NAME) == r.mime
  {
    var ls := HeaderLines(r);
    FieldNamesDiffer(ls[1], NatToString(|r.body|));
    FieldSkip(ls, TYPE_NAME, 1);
    if r.mime.Some? {
      FieldHit(ls, TYPE_NAME, 2, r.mime.value);
    } else {
      FieldNamesDiffer(ls[2], "close");
      FieldSkip(ls, TYPE_NAME, 2);
      assert !StartsWith("", TYPE_KEY);
      FieldSkip(ls, TYPE_NAME, 3);
    }
  }

  lemma CloseFieldLast(r: Response)
    ensures FieldValue(HeaderLines(r), CLOSE_NAME) == Some("close")
  {
    var ls := HeaderLines(r);
    var k := |ls|;
    assert CLOSE_LINE == CLOSE_NAME + ": " + "close";
    FieldNamesDiffer(ls[1], NatToString(|r.body|));
    FieldSkip(ls, CLOSE_NAME, 1);
    if r.mime.Some? {
      FieldNamesDiffer(ls[2], r.mime.value);
      FieldSkip(ls, CLOSE_NAME, 2);
    }
    FieldHit(ls, CLOSE_NAME, k - 2, "close");
  }

  /** On the wire the body follows the header unchanged, so a client that
      reads the announced number of bytes after the header gets the body. */
  lemma BodyFollowsHeader(r: Response)
    ensures IntoBytes(r)[..|Header(r)|] == Header(r)
    ensures IntoBytes(r)[|Header(r)|..] == r.body
    ensures Utf8.Decode(Header(r)) == Some(HeaderText(r))
  {
    Utf8.DecodeEncode(HeaderText(r));
  }
}

=== FILE: http_status.dfy ===
/** HTTP status values (http/status.rs): a code, its reason phrase and an
    optional comment shown on the error page. */
module HttpStatus {
  import opened Results
  import opened Text
  import opened IoErrors
  import Html

  datatype Status = Status(code: nat, msg: string, comment: Option<string>)

  /** The reason phrase the server uses for a code; every code it does not
      name is reported as an internal error. */
  function Reason(code: nat): (r: string)
    ensures r == "Internal Server Error" <==> code !in {200, 403, 404, 501}
  {
    if code == 200 then "OK"
    else if code == 403 then "Forbidden"
    else if code == 404 then "Not Found"
    else if code == 501 then "Not Implemented"
    else "Internal Server Error"
  }

  /** `From<usize>`: the code with its reason phrase and no comment. */
  function FromCode(code: nat): (r: Status)
    ensures r.code == code && r.comment.None?
    ensures r.msg == Reason(code)
  {
    Status(code, Reason(code), None)
  }

  /** `From<&io::Error>`: a missing file is 404, a refused one 403, and
      anything else 500; the comment is the error's custom payload. */
  function FromIoError(e: IoError): (r: Status)
    ensures r.code == 404 <==> e.kind == NotFound
    ensures r.code == 403 <==> e.kind == PermissionDenied
    ensures r.code in {403, 404, 500}
    ensures r.msg == Reason(r.code)
    ensures r.comment == Payload(e)
  {
    var comment := Payload(e);
    match e.kind
    case NotFound => Status(404, "Not Found", comment)
    case PermissionDenied => Status(403, "Forbidden", comment)
    case _ => Status(500, "Internal Server Error", comment)
  }

  /** `From<&io::Result<T>>`: success is 200 OK. */
  function FromIoResult<T>(res: Result<T, IoError>): (r: Status)
    ensures res.Ok? ==> r == Status(200, "OK", None)
    ensures res.Err? ==> r == FromIoError(res.error)
  {
    match res
    case Ok(_) => FromCode(200)
    case Err(e) => FromIoError(e)
  }

  /** An error status and the status of the same code built from the code
      alone differ at most in the comment. */
  lemma FromIoErrorAgreesWithCode(e: IoError)
    ensures FromIoError(e) == FromCode(FromIoError(e).code).(comment := Payload(e))
  {
  }

  // ---------------------------------------------------------------------
  // Status line
  // ---------------------------------------------------------------------

  const VERSION := "HTTP/1.1 "

  /** `Display`: `HTTP/1.1 <code> <reason>`. */
  function StatusLine(s: Status): (r: string)
    ensures StartsWith(r, VERSION)
  {
    VERSION + NatToString(s.code) + " " + s.msg
  }

  /** Length of the run of digits `s` starts with. */
  function DigitRun(s: string): (n: nat)
    ensures n <= |s| && AllDigits(s[..n])
    ensures n < |s| ==> !IsDigit(s[n])
    decreases |s|
  {
    if |s| == 0 || !IsDigit(s[0]) then 0
    else
      var k := DigitRun(s[1..]);
      assert s[..k + 1] == [s[0]] + s[1..][..k];
      k + 1
  }

  /** Reads a status line as a client does: the version, a decimal code, one
      space, and the reason phrase as the rest of the line. */
  function ParseStatusLine(line: string): Option<(nat, string)> {
    if !StartsWith(line, VERSION) then None
    else
      var rest := line[|VERSION|..];
      var n := DigitRun(rest);
      if n == 0 || n == |rest| || rest[n] != ' ' then None
      else Some((DigitsValue(rest[..n]), rest[n + 1..]))
  }

  lemma {:induction false} DigitRunOf(d: string, rest: string)
    requires AllDigits(d)
    requires rest == [] || !IsDigit(rest[0])
    ensures DigitRun(d + rest) == |d|
    decreases |d|
  {
    if |d| > 0 {
      assert (d + rest)[1..] == d[1..] + rest;
      DigitRunOf(d[1..], rest);
    } else {
      assert d + rest == rest;
    }
  }

  /** A client reads back the code and reason the server wrote. */
  lemma ParseStatusLineOf(s: Status)
    ensures ParseStatusLine(StatusLine(s)) == Some((s.code, s.msg))
  {
    var line := StatusLine(s);
    var digits := NatToString(s.code);
    var rest := line[|VERSION|..];
    assert rest == digits + (" " + s.msg);
    DigitRunOf(digits, " " + s.msg);
    assert rest[..|digits|] == digits;
    assert rest[|digits| + 1..] == s.msg;
    DigitsValueOfNatToString(s.code);
  }

  // ---------------------------------------------------------------------
  // Error page
  // ---------------------------------------------------------------------

  /** The paragraph text of the error page: the reason, then the comment
      as a paragraph of its own. */
  function PageContent(s: Status): string {
    match s.comment
    case None => s.msg
    case Some(c) => s.msg + "</p><p>" + c
  }

  /** `to_html`: the code as title and heading, the reason and comment below. */
  function ToHtml(s: Status): (r: string)
    ensures StartsWith(r, Html.DOCTYPE) && EndsWith(r, Html.HTML_END)
  {
    Html.HtmlDoc(NatToString(s.code), NatToString(s.code), PageContent(s))
  }

  /** The page names the code in its heading, shows the reason, and shows
      the comment, when there is one, as the paragraph after it. */
  lemma ToHtmlShows(s: Status)
    ensures Contains(ToHtml(s), "<h1>" + NatToString(s.code) + "</h1>")
    ensures s.comment.None? ==> Contains(ToHtml(s), "<p>" + s.msg + "</p>")
    ensures s.comment.Some? ==> Contains(ToHtml(s), "<p>" + s.msg + "</p><p>" + s.comment.value + "</p>")
  {
    var code := NatToString(s.code);
    Html.HtmlDocShowsLead(code, code, PageContent(s));
    Html.HtmlDocShowsContent(code, code, PageContent(s));
    if s.comment.Some? {
      assert "<p>" + PageContent(s) + "</p>" == "<p>" + s.msg + "</p><p>" + s.comment.value + "</p>";
    }
  }

  /** The page determines the reason and comment: two statuses with the same
      code and the same page carry the same text. */
  lemma ToHtmlContent(s: Status)
    ensures Html.ContentOf(ToHtml(s), NatToString(s.code), NatToString(s.code)) == PageContent(s)
  {
    Html.ContentOfHtmlDoc(NatToString(s.code), NatToString(s.code), PageContent(s));
  }
}

=== FILE: io_errors.dfy ===
/** The part of `std::io::Error` the server looks at: its kind, whether it
    carries a custom payload (`get_ref`), and how it displays. */
module IoErrors {
  import opened Results
  import opened Text

  /** The kinds the server distinguishes, plus the two the abstract file
      system raises itself; `Other` stands for every remaining kind. */
  datatype ErrorKind = NotFound | PermissionDenied | IsADirectory | NotADirectory | Other

  /** An error raised by the operating system (`Os`, no payload) or built
      with `io::Error::new(kind, message)` (`Custom`). */
  datatype IoError =
    | Os(kind: ErrorKind, code: nat, description: string)
    | Custom(kind: ErrorKind, message: string)

  /** `error.get_ref().map(|e| e.to_string())`: only custom errors carry a payload. */
  function Payload(e: IoError): (r: Option<string>)
    ensures r.Some? <==> e.Custom?
  {
    match e
    case Os(_, _, _) => None
    case Custom(_, m) => Some(m)
  }

  /** `Display for io::Error`: the payload's text, or the system's
      description followed by the error number. */
  function Display(e: IoError): string {
    match e
    case Os(_, code, description) => description + " (os error " + NatToString(code) + ")"
    case Custom(_, m) => m
  }
}

=== FILE: mime.dfy ===
/** MIME types by file extension (files/mime.rs). The table follows the
    common-types list the server was written against; anything not in it,
    including an extension that differs only in case, has no type and the
    response then carries no `Content-Type` header. */
module Mime {
  import opened Results
  import opened Text
  import opened Paths

  /** The lookup table of `guess_mime_type`, keyed by the exact extension text. */
  function TypeForExtension(ext: string): Option<string> {
    match ext
    case "aac" => Some("audio/aac")
    case "abw" => Some("application/x-abiword")
    case "arc" => Some("application/x-freearc")
    case "avi" => Some("video/x-msvideo")
    case "azw" => Some("application/vnd.amazon.ebook")
    case "bin" => Some("application/octet-stream")
    case "bmp" => Some("image/bmp")
    case "bz" => Some("application/x-bzip")
    case "bz2" => Some("application/x-bzip2")
    case "csh" => Some("application/x-csh")
    case "css" => Some("text/css")
    case "csv" => Some("text/csv")
    case "doc" => Some("application/msword")
    case "docx" => Some("application/vnd.openxmlformats-officedocument.wordprocessingml.document")
    case "eot" => Some("application/vnd.ms-fontobject")
    case "epub" => Some("application/epub+zip")
    case "gz" => Some("application/gzip")
    case "gif" => Some("image/gif")
    case "htm" => Some("text/html")
    case "html" => Some("text/html")
    case "ico" => Some("image/vnd.microsoft.icon")
    case "ics" => Some("text/calendar")
    case "jar" => Some("application/java-archive")
    case "jpeg" => Some("image/jpeg")
    case "jpg" => Some("image/jpeg")
    case "js" => Some("text/javascript")
    case "json" => Some("application/json")
    case "jsonld" => Some("application/ld+json")
    case "mid" => Some("audio/midi")
    case "midi" => Some("audio/midi")
    case "mjs" => Some("text/javascript")
    case "mp3" => Some("audio/mpeg")
    case "mpeg" => Some("video/mpeg")
    case "mpkg" => Some("application/vnd.apple.installer+xml")
    case "odp" => Some("application/vnd.oasis.opendocument.presentation")
    case "ods" => Some("application/vnd.oasis.opendocument.spreadsheet")
    case "odt" => Some("application/vnd.oasis.opendocument.text")
    case "oga" => Some("audio/ogg")
    case "ogv" => Some("video/ogg")
    case "ogx" => Some("application/ogg")
    case "opus" => Some("audio/opus")
    case "otf" => Some("font/otf")
    case "png" => Some("image/png")
    case "pdf" => Some("application/pdf")
    case "php" => Some("application/x-httpd-php")
    case "ppt" => Some("application/vnd.ms-powerpoint")
    case "pptx" => Some("application/vnd.openxmlformats-officedocument.presentationml.presentation")
    case "rar" => Some("application/vnd.rar")
    case "rtf" => Some("application/rtf")
    case "sh" => Some("application/x-sh")
    case "svg" => Some("image/svg+xml")
    case "swf" => Some("application/x-shockwave-flash")
    case "tar" => Some("application/x-tar")
    case "tif" => Some("image/tiff")
    case "tiff" => Some("image/tiff")
    case "ts" => Some("video/mp2t")
    case "ttf" => Some("font/ttf")
    case "txt" => Some("text/plain")
    case "vsd" => Some("application/vnd.visio")
    case "wav" => Some("audio/wav")
    case "weba" => Some("audio/webm")
    case "webm" => Some("video/webm")
    case "webp" => Some("image/webp")
    case "woff" => Some("font/woff")
    case "woff2" => Some("font/woff2")
    case "xhtml" => Some("application/xhtml+xml")
    case "xls" => Some("application/vnd.ms-excel")
    case "xlsx" => Some("application/vnd.openxmlformats-officedocument.spreadsheetml.sheet")
    case "xml" => Some("application/xml")
    case "xul" => Some("application/vnd.mozilla.xul+xml")
    case "zip" => Some("application/zip")
    case "3gp" => Some("video/3gpp")
    case "3g2" => Some("video/3gpp2")
    case "7z" => Some("application/x-7z-compressed")
    case "rs" => Some("text/x-rust")
    case _ => None
  }

  /** `guess_mime_type`: the type registered for the extension of the last
      component of the path, if any. */
  function GuessMimeType(p: Path): (r: Option<string>)
    ensures r.Some? ==> Extension(p).Some? && TypeForExtension(Extension(p).value) == r
  {
    match Extension(p)
    case None => None
    case Some(ext) => TypeForExtension(ext)
  }

  /** Exactly the extensions `htm` and `html` are served as HTML. */
  lemma HtmlExtensions(ext: string)
    ensures TypeForExtension(ext) == Some("text/html") <==> ext == "htm" || ext == "html"
  {
  }

  /** Exactly `js` and `mjs` are served as JavaScript. */
  lemma JavascriptExtensions(ext: string)
    ensures TypeForExtension(ext) == Some("text/javascript") <==> ext == "js" || ext == "mjs"
  {
  }

  /** Both spellings of JPEG and of TIFF are recognised. */
  lemma ImageExtensions(ext: string)
    ensures TypeForExtension(ext) == Some("image/jpeg") <==> ext == "jpg" || ext == "jpeg"
    ensures TypeForExtension(ext) == Some("image/tiff") <==> ext == "tif" || ext == "tiff"
  {
  }

  /** The lookup is case-sensitive: upper-case spellings have no type. */
  lemma UpperCaseUnknown()
    ensures TypeForExtension("HTML") == None && TypeForExtension("JPG") == None
  {
  }

  /** Only the last component matters, and of its name only the text after
      the last dot: `archive.tar.gz` anywhere in the tree is gzip. */
  lemma TypeOfNamedFile(root: bool, dirs: seq<Part>, stem: string, ext: string)
    requires stem != "" && '.' !in ext && !(stem == "." && ext == "")
    ensures GuessMimeType(Path(root, dirs + [Normal(stem + "." + ext)])) == TypeForExtension(ext)
  {
    ExtensionOfStemAndExt(stem, ext);
  }

  /** A hidden file such as `.html` has no extension and so no type. */
  lemma HiddenFileUntyped(root: bool, dirs: seq<Part>, name: string)
    requires 0 < |name| && name[0] == '.' && '.' !in name[1..]
    ensures GuessMimeType(Path(root, dirs + [Normal(name)])) == None
  {
    HiddenNameHasNoExtension(name);
  }

  /** The served directory itself (a bare root) has no type. */
  lemma RootUntyped()
    ensures GuessMimeType(Path(true, [])) == None
  {
  }
}

=== FILE: paths.dfy ===
/** Request-path resolution (files/path.rs): percent-decoding of the request
    target, lexical removal of "." and ".." components, joining onto the
    served directory, and the ancestor test the handler uses as its
    traversal guard.

    Paths are POSIX paths as `std::path` sees them: an optional root followed
    by components. Rust compares paths component by component, so two paths
    are equal here exactly when Rust's `==` on `Path` says so. */
module Paths {
  import opened Results
  import opened Text
  import Utf8

  // ---------------------------------------------------------------------
  // Percent-decoding (section 2.1 of RFC 3986)
  // ---------------------------------------------------------------------

  const PERCENT: byte := 0x25

  /** `char::from(b).to_digit(16)`: hexadecimal digits in either case. */
  function HexValue(b: byte): (r: Option<nat>)
    ensures r.Some? <==> (0x30 <= b <= 0x39 || 0x41 <= b <= 0x46 || 0x61 <= b <= 0x66)
    ensures r.Some? ==> r.value < 16
  {
    if 0x30 <= b <= 0x39 then Some(b - 0x30)
    else if 0x61 <= b <= 0x66 then Some(b - 0x61 + 10)
    else if 0x41 <= b <= 0x46 then Some(b - 0x41 + 10)
    else None
  }

  /** `from_hex`: `rest` holds the bytes after a `%`. When the next two are
      hexadecimal digits the decoded byte is returned and the caller skips
      both; otherwise nothing is returned and nothing is consumed. The result
      `16 * a + b` is at most 255, so the `u8` arithmetic never wraps. */
  function FromHex(rest: Bytes): (r: Option<byte>)
    ensures r.Some? ==> 2 <= |rest| && HexValue(rest[0]).Some? && HexValue(rest[1]).Some?
  {
    if |rest| < 2 then None
    else
      match (HexValue(rest[0]), HexValue(rest[1]))
      case (Some(a), Some(b)) => Some(16 * a + b)
      case _ => None
  }

  /** The byte loop of `decode_percents`: every `%XY` with two hexadecimal
      digits becomes the byte 0xXY, a `%` that is not followed by two such
      digits stays as it is and scanning resumes right after it, and every
      other byte is copied. */
  function DecodeBytes(b: Bytes): (r: Bytes)
    ensures |r| <= |b|
    ensures PERCENT !in b ==> r == b
    decreases |b|
  {
    if |b| == 0 then []
    else if b[0] == PERCENT then
      match FromHex(b[1..])
      case Some(v) => [v] + DecodeBytes(b[3..])
      case None => [PERCENT] + DecodeBytes(b[1..])
    else [b[0]] + DecodeBytes(b[1..])
  }

  /** `decode_percents`: text without `%` is returned as it is; otherwise
      the decoded bytes must be UTF-8 again. None models the `unwrap` on
      `from_utf8` failing, which panics the worker thread handling the
      request. */
  function DecodePercents(path: string): (r: Option<string>)
    ensures '%' !in path ==> r == Some(path)
    ensures r.Some? ==> |Utf8.Encode(r.value)| <= |Utf8.Encode(path)|
  {
    if '%' !in path then Some(path)
    else
      var decoded := DecodeBytes(Utf8.Encode(path));
      if Utf8.Decode(decoded).Some? then
        Utf8.EncodeDecode(decoded);
        Utf8.Decode(decoded)
      else None
  }

  /** The early return for text without `%` agrees with the byte loop, so
      it is an optimisation and not a change of meaning. */
  lemma DecodePercentsShortcut(path: string)
    ensures DecodePercents(path) == Utf8.Decode(DecodeBytes(Utf8.Encode(path)))
    ensures '%' !in path ==> DecodePercents(path) == Some(path)
  {
    if '%' !in path {
      Utf8.EncodeMentionsAscii(path, '%');
      Utf8.DecodeEncode(path);
    }
  }

  /** A lone `%` (not followed by two hexadecimal digits, including at the
      very end) is kept and decoding resumes at the next byte. */
  lemma LonePercentKept(rest: Bytes)
    requires FromHex(rest).None?
    ensures DecodeBytes([PERCENT] + rest) == [PERCENT] + DecodeBytes(rest)
  {
    assert ([PERCENT] + rest)[1..] == rest;
  }

  /** A valid escape `%XY` becomes exactly one byte and decoding resumes after it. */
  lemma EscapeDecoded(x: byte, y: byte, rest: Bytes)
    requires HexValue(x).Some? && HexValue(y).Some?
    ensures DecodeBytes([PERCENT, x, y] + rest)
            == [(16 * HexValue(x).value + HexValue(y).value) as byte] + DecodeBytes(rest)
  {
    var b := [PERCENT, x, y] + rest;
    assert b[0] == PERCENT && b[3..] == rest;
    assert b[1..] == [x, y] + rest;
    FromHexOf(x, y, rest);
    EscapeStep(b);
  }

  /** One step of the byte loop on a valid escape. */
  lemma EscapeStep(b: Bytes)
    requires 3 <= |b| && b[0] == PERCENT && FromHex(b[1..]).Some?
    ensures DecodeBytes(b) == [FromHex(b[1..]).value] + DecodeBytes(b[3..])
  {
  }

  lemma FromHexOf(x: byte, y: byte, rest: Bytes)
    requires HexValue(x).Some? && HexValue(y).Some?
    ensures FromHex([x, y] + rest) == Some((16 * HexValue(x).value + HexValue(y).value) as byte)
  {
    assert ([x, y] + rest)[0] == x && ([x, y] + rest)[1] == y;
  }

  // A client-side encoder, used as the reference the decoder must invert.

  /** Upper-case hexadecimal digit. */
  function HexDigit(d: nat): (r: byte)
    requires d < 16
    ensures HexValue(r) == Some(d)
  {
    if d < 10 then 0x30 + d else 0x41 + d - 10
  }

  /** A lower-case digit reads as its upper-case form: `%2e` and `%2E`
      decode alike. */
  lemma LowerCaseHexDigit(d: nat)
    requires 10 <= d < 16
    ensures HexValue(HexDigit(d) + 0x20) == Some(d)
  {
  }

  /** Every accepted byte is the upper- or lower-case digit of its value. */
  lemma HexValueIsDigit(b: byte)
    requires HexValue(b).Some?
    ensures var d := HexValue(b).value;
            b == HexDigit(d) || (10 <= d && b == HexDigit(d) + 0x20)
  {
  }

  /** The unreserved characters of section 2.3 of RFC 3986: letters, digits,
      `-`, `.`, `_` and `~`. */
  predicate IsUnreserved(b: byte) {
    (0x41 <= b <= 0x5A) || (0x61 <= b <= 0x7A) || (0x30 <= b <= 0x39)
    || b == 0x2D || b == 0x2E || b == 0x5F || b == 0x7E
  }

  /** One byte as a client sends it: unreserved bytes stay, every other
      byte becomes `%XY`. */
  function EncodeByte(x: byte): (r: Bytes)
    ensures forall i :: 0 <= i < |r| ==> r[i] < 0x80
  {
    if IsUnreserved(x) then [x] else [PERCENT, HexDigit(x / 16), HexDigit(x % 16)]
  }

  /** Percent-encoding as a client applies it, byte by byte. */
  function PercentEncode(b: Bytes): (r: Bytes)
    ensures forall i :: 0 <= i < |r| ==> r[i] < 0x80
    decreases |b|
  {
    if |b| == 0 then [] else EncodeByte(b[0]) + PercentEncode(b[1..])
  }

  /** Decoding reads back an encoded byte, whatever follows it. */
  lemma DecodeEncodedByte(x: byte, rest: Bytes)
    ensures DecodeBytes(EncodeByte(x) + rest) == [x] + DecodeBytes(rest)
  {
    if IsUnreserved(x) {
      assert ([x] + rest)[1..] == rest;
    } else {
      var hi, lo := HexDigit(x / 16), HexDigit(x % 16);
      EscapeDecoded(hi, lo, rest);
      assert 16 * (x as int / 16) + x as int % 16 == x as int;
    }
  }

  /** Decoding undoes any client's percent-encoding. */
  lemma {:induction false} DecodeBytesOfPercentEncode(b: Bytes)
    ensures DecodeBytes(PercentEncode(b)) == b
    decreases |b|
  {
    if |b| > 0 {
      calc {
        DecodeBytes(PercentEncode(b));
        DecodeBytes(EncodeByte(b[0]) + PercentEncode(b[1..]));
        { DecodeEncodedByte(b[0], PercentEncode(b[1..])); }
        [b[0]] + DecodeBytes(PercentEncode(b[1..]));
        { DecodeBytesOfPercentEncode(b[1..]); }
        [b[0]] + b[1..];
        b;
      }
    }
  }

  // ---------------------------------------------------------------------
  // Components
  // ---------------------------------------------------------------------

  datatype Part = CurDir | ParentDir | Normal(name: string)

  /** A path: whether it starts at the root, then its components. */
  datatype Path = Path(root: bool, parts: seq<Part>)

  /** What a `Normal` component can hold once parsed. */
  predicate ValidName(n: string) {
    n != "" && n != "." && n != ".." && '/' !in n
  }

  /** The shape `Path::components` produces: valid names, and `.` only as
      the first component of a relative path. */
  predicate WellFormed(p: Path) {
    forall i :: 0 <= i < |p.parts| ==>
      (p.parts[i].Normal? ==> ValidName(p.parts[i].name))
      && (p.parts[i].CurDir? ==> i == 0 && !p.root)
  }

  /** Only names: no `.` and no `..` component. */
  predicate Normalized(p: Path) {
    forall i :: 0 <= i < |p.parts| ==> p.parts[i].Normal? && ValidName(p.parts[i].name)
  }

  /** The components of the slash-separated pieces: empty and `.` pieces vanish. */
  function PartsOf(pieces: seq<string>): (r: seq<Part>)
    requires forall i :: 0 <= i < |pieces| ==> '/' !in pieces[i]
    ensures forall i :: 0 <= i < |r| ==> !r[i].CurDir? && (r[i].Normal? ==> ValidName(r[i].name))
    decreases |pieces|
  {
    if |pieces| == 0 then []
    else
      var p := pieces[0];
      var head := if p == "" || p == "." then [] else if p == ".." then [ParentDir] else [Normal(p)];
      head + PartsOf(pieces[1..])
  }

  /** `Path::new(s).components()` on Unix. A `.` is kept only at the very
      start of a relative path. */
  function ParsePath(s: string): (r: Path)
    ensures WellFormed(r)
    ensures r.root <==> 0 < |s| && s[0] == '/'
  {
    var root := 0 < |s| && s[0] == '/';
    var lead := !root && (s == "." || StartsWith(s, "./"));
    Path(root, (if lead then [CurDir] else []) + PartsOf(Split(s, '/')))
  }

  function PartText(p: Part): string {
    match p
    case CurDir => "."
    case ParentDir => ".."
    case Normal(n) => n
  }

  function PartTexts(parts: seq<Part>): (r: seq<string>)
    ensures |r| == |parts|
    ensures forall i :: 0 <= i < |r| ==> r[i] == PartText(parts[i])
  {
    seq(|parts|, i requires 0 <= i < |parts| => PartText(parts[i]))
  }

  /** `Path::display` of a path built by pushing its components. */
  function PathText(p: Path): string {
    (if p.root then "/" else "") + Join(PartTexts(p.parts), "/")
  }

  function Names(parts: seq<Part>): (r: seq<string>)
    requires forall i :: 0 <= i < |parts| ==> parts[i].Normal?
    ensures |r| == |parts|
    ensures forall i :: 0 <= i < |r| ==> r[i] == parts[i].name
  {
    seq(|parts|, i requires 0 <= i < |parts| => parts[i].name)
  }

  function Normals(names: seq<string>): (r: seq<Part>)
    ensures |r| == |names|
    ensures forall i :: 0 <= i < |r| ==> r[i] == Normal(names[i])
  {
    seq(|names|, i requires 0 <= i < |names| => Normal(names[i]))
  }

  lemma {:induction false} PartsOfNames(names: seq<string>)
    requires forall i :: 0 <= i < |names| ==> ValidName(names[i])
    requires forall i :: 0 <= i < |names| ==> '/' !in names[i]
    ensures PartsOf(names) == Normals(names)
    decreases |names|
  {
    if |names| > 0 {
      PartsOfNames(names[1..]);
      assert Normals(names) == [Normal(names[0])] + Normals(names[1..]);
    }
  }

  /** A join starts with its first piece, followed by the separator when
      more pieces come. */
  lemma JoinHead(names: seq<string>)
    requires 1 <= |names|
    ensures var s := Join(names, "/");
            StartsWith(s, names[0]) && (1 < |names| ==> |names[0]| < |s| && s[|names[0]|] == '/')
  {
    if 1 < |names| {
      var s := Join(names, "/");
      assert s == names[0] + "/" + Join(names[1..], "/");
    }
  }

  /** A relative joined path of valid names does not start with a `.`
      component, so parsing it adds no leading `CurDir`. */
  lemma JoinNotDotLed(names: seq<string>)
    requires 1 <= |names|
    requires forall i :: 0 <= i < |names| ==> ValidName(names[i])
    ensures var s := Join(names, "/"); !(s == "." || StartsWith(s, "./"))
  {
    var s := Join(names, "/");
    var n0 := names[0];
    JoinHead(names);
    assert s[0] == n0[0];
    if |n0| == 1 {
      assert n0 == [n0[0]];
    } else {
      assert s[1] == n0[1];
      assert n0[1] in n0;
    }
    NotDotLed(s);
  }

  /** A text is not `.` and does not start with `./` when its first
      character is not a dot, or its second one is not a slash. */
  lemma NotDotLed(s: string)
    requires 0 < |s| && (s[0] != '.' || (2 <= |s| && s[1] != '/'))
    ensures !(s == "." || StartsWith(s, "./"))
  {
    if 2 <= |s| {
      assert s[..2] == [s[0], s[1]];
    }
  }

  /** Parsing the slash-joined text of valid names gives those names. */
  lemma ParseRelativeNames(names: seq<string>)
    requires 1 <= |names|
    requires forall i :: 0 <= i < |names| ==> ValidName(names[i])
    ensures ParsePath(Join(names, "/")) == Path(false, Normals(names))
  {
    var j := Join(names, "/");
    SplitJoin(names, '/');
    PartsOfNames(names);
    JoinNotDotLed(names);
    assert Split(j, '/') == names;
    if 0 < |j| {
      JoinHead(names);
      assert j[0] == names[0][0];
    }
  }

  /** The same with a leading separator: the empty first piece vanishes. */
  lemma ParseRootedNames(names: seq<string>)
    requires 1 <= |names|
    requires forall i :: 0 <= i < |names| ==> ValidName(names[i])
    ensures ParsePath("/" + Join(names, "/")) == Path(true, Normals(names))
  {
    var j := Join(names, "/");
    var s := "/" + j;
    SplitJoin(names, '/');
    PartsOfNames(names);
    assert s[1..] == j;
    assert Split(s, '/') == [""] + names;
    assert ([""] + names)[1..] == names;
  }

  /** Reading back the displayed text of a normalized path gives the path. */
  lemma ParsePathText(p: Path)
    requires Normalized(p)
    ensures ParsePath(PathText(p)) == p
  {
    var names := Names(p.parts);
    assert PartTexts(p.parts) == names;
    assert Normals(names) == p.parts;
    var s := PathText(p);
    if |names| == 0 {
      if p.root {
        assert s == "/";
        assert Split(s, '/') == ["", ""];
      } else {
        assert s == "";
      }
    } else if p.root {
      assert s == "/" + Join(names, "/");
      ParseRootedNames(names);
    } else {
      assert s == Join(names, "/");
      ParseRelativeNames(names);
    }
  }

  // ---------------------------------------------------------------------
  // Joining and normalizing
  // ---------------------------------------------------------------------

  function DropLeadingCurDir(parts: seq<Part>): seq<Part> {
    if 0 < |parts| && parts[0].CurDir? then parts[1..] else parts
  }

  /** `base.join(q)` seen through its components: an absolute `q` replaces
      the base, an empty base gives `q`, and otherwise the components follow
      each other (a leading `.` of `q` is no longer leading and vanishes). */
  function JoinPath(base: Path, q: Path): (r: Path)
    ensures WellFormed(base) && WellFormed(q) ==> WellFormed(r)
    ensures q.root ==> r == q
  {
    if q.root then q
    else if base == Path(false, []) then q
    else Path(base.root, base.parts + DropLeadingCurDir(q.parts))
  }

  /** The names kept by `normalize_path` after walking `parts` left to right:
      `.` does nothing, `..` removes the last kept name if there is one (a
      bare root or an empty path stay as they are), and a name is kept. */
  function Walk(parts: seq<Part>): (r: seq<string>)
    ensures |r| <= |parts|
    ensures forall i :: 0 <= i < |r| ==> Normal(r[i]) in parts
    decreases |parts|
  {
    if |parts| == 0 then []
    else
      var prev := Walk(parts[..|parts| - 1]);
      assert forall i :: 0 <= i < |prev| ==> Normal(prev[i]) in parts by {
        forall i | 0 <= i < |prev| ensures Normal(prev[i]) in parts {
          assert Normal(prev[i]) in parts[..|parts| - 1];
        }
      }
      match parts[|parts| - 1]
      case CurDir => prev
      case ParentDir => if |prev| == 0 then [] else prev[..|prev| - 1]
      case Normal(n) => prev + [n]
  }

  /** `normalize_path`: keeps the root, then the names `Walk` leaves. */
  function Normalize(p: Path): (r: Path)
    ensures r.root == p.root
    ensures |r.parts| <= |p.parts|
    ensures WellFormed(p) ==> Normalized(r)
  {
    var names := Walk(p.parts);
    assert WellFormed(p) ==> forall i :: 0 <= i < |names| ==> ValidName(names[i]) by {
      if WellFormed(p) {
        forall i | 0 <= i < |names| ensures ValidName(names[i]) {
          var k :| 0 <= k < |p.parts| && p.parts[k] == Normal(names[i]);
        }
      }
    }
    Path(p.root, Normals(names))
  }

  /** Walking a path made of names only keeps every name. */
  lemma {:induction false} WalkNormals(names: seq<string>)
    ensures Walk(Normals(names)) == names
    decreases |names|
  {
    if |names| > 0 {
      var init := names[..|names| - 1];
      WalkNormals(init);
      assert Normals(names)[..|names| - 1] == Normals(init);
      assert init + [names[|names| - 1]] == names;
    }
  }

  /** Walking on from already-kept names: as long as no `..` occurs, the
      kept names are extended and never shortened. */
  lemma {:induction false} WalkExtends(names: seq<string>, q: seq<Part>)
    requires forall i :: 0 <= i < |q| ==> !q[i].ParentDir?
    ensures Walk(Normals(names) + q) == names + Walk(q)
    decreases |q|
  {
    if |q| == 0 {
      WalkNormals(names);
      assert Normals(names) + q == Normals(names);
    } else {
      var init := q[..|q| - 1];
      WalkExtends(names, init);
      assert (Normals(names) + q)[..|Normals(names) + q| - 1] == Normals(names) + init;
      match q[|q| - 1]
      case CurDir =>
      case Normal(n) =>
        assert names + Walk(init) + [n] == names + (Walk(init) + [n]);
    }
  }

  /** `normalize_path` is idempotent: its output has no `.` or `..` left to remove. */
  lemma NormalizeIdempotent(p: Path)
    ensures Normalize(Normalize(p)) == Normalize(p)
  {
    WalkNormals(Walk(p.parts));
  }

  /** `..` at the root stays at the root: `/..` normalizes to `/`. */
  lemma ParentOfRootIsRoot()
    ensures Normalize(Path(true, [ParentDir])) == Path(true, [])
  {
    assert Walk([ParentDir]) == [] by {
      assert [ParentDir][..0] == [];
    }
  }

  // ---------------------------------------------------------------------
  // Ancestors and the traversal guard
  // ---------------------------------------------------------------------

  /** `Path::parent`: the path without its last component; a bare root or an
      empty path has no parent. */
  function Parent(p: Path): (r: Option<Path>)
    ensures r.Some? ==> |r.value.parts| + 1 == |p.parts|
  {
    if |p.parts| == 0 then None else Some(Path(p.root, p.parts[..|p.parts| - 1]))
  }

  /** `Path::ancestors`: the path, its parent, its parent's parent, ... */
  function Ancestors(p: Path): (r: seq<Path>)
    ensures 0 < |r| && r[0] == p
    decreases |p.parts|
  {
    match Parent(p)
    case None => [p]
    case Some(q) => [p] + Ancestors(q)
  }

  /** The guard of `handle_connection`: `filename.ancestors().find(|a| a == base_dir).is_some()`. */
  predicate IsSub(filename: Path, base: Path) {
    base in Ancestors(filename)
  }

  /** `a` is a component-wise prefix of `p` (with the same root). */
  predicate IsPrefixPath(a: Path, p: Path) {
    a.root == p.root && |a.parts| <= |p.parts| && p.parts[..|a.parts|] == a.parts
  }

  /** The ancestors of a path are exactly its component-wise prefixes. */
  lemma {:induction false} AncestorsArePrefixes(p: Path, a: Path)
    ensures a in Ancestors(p) <==> IsPrefixPath(a, p)
    decreases |p.parts|
  {
    if |p.parts| > 0 {
      var q := Path(p.root, p.parts[..|p.parts| - 1]);
      AncestorsArePrefixes(q, a);
      assert Ancestors(p) == [p] + Ancestors(q);
      if IsPrefixPath(a, p) && a != p {
        assert p.parts[..|p.parts|] == p.parts;
        assert |a.parts| < |p.parts|;
        assert q.parts[..|a.parts|] == a.parts;
      }
    } else {
      if IsPrefixPath(a, p) {
        assert a.parts == [];
      }
    }
  }

  /** The guard passes exactly when `base` is a component-wise prefix. */
  lemma IsSubIffPrefix(filename: Path, base: Path)
    ensures IsSub(filename, base) <==> IsPrefixPath(base, filename)
  {
    AncestorsArePrefixes(filename, base);
  }

  /** The path lies under `base` with nothing but names below it, so it
      denotes `base` itself or something lexically inside it. */
  predicate Confined(p: Path, base: Path) {
    IsPrefixPath(base, p)
    && forall i :: |base.parts| <= i < |p.parts| ==> p.parts[i].Normal? && ValidName(p.parts[i].name)
  }

  // ---------------------------------------------------------------------
  // process_path
  // ---------------------------------------------------------------------

  /** `process_path(path, base)`: decode, join onto the base, normalize.
      None when decoding panics. */
  function ProcessPath(path: string, base: Path): (r: Option<Path>)
    ensures r.None? <==> DecodePercents(path).None?
    ensures r.Some? && WellFormed(base) ==> Normalized(r.value)
  {
    match DecodePercents(path)
    case None => None
    case Some(decoded) => Some(Normalize(JoinPath(base, ParsePath(decoded))))
  }

  /** The decoded text is what is resolved: a request path resolves exactly
      as its decoding does (when that decoding holds no `%` of its own). */
  lemma DecodedResolvesAlike(p: string, base: Path)
    requires DecodePercents(p).Some? && '%' !in DecodePercents(p).value
    ensures ProcessPath(p, base) == ProcessPath(DecodePercents(p).value, base)
  {
    DecodePercentsShortcut(DecodePercents(p).value);
  }

  /** A relative request path without `..` always resolves inside a
      normalized base, so the guard never rejects an honest request. */
  lemma GuardAdmitsDescent(base: Path, q: Path)
    requires Normalized(base) && WellFormed(q)
    requires !q.root
    requires forall i :: 0 <= i < |q.parts| ==> !q.parts[i].ParentDir?
    ensures IsSub(Normalize(JoinPath(base, q)), base)
  {
    var j := JoinPath(base, q);
    var n := Normalize(j);
    if base == Path(false, []) {
      IsSubIffPrefix(n, base);
    } else {
      var names := Names(base.parts);
      assert Normals(names) == base.parts;
      var rest := DropLeadingCurDir(q.parts);
      assert forall i :: 0 <= i < |rest| ==> !rest[i].ParentDir?;
      WalkExtends(names, rest);
      assert Walk(j.parts) == names + Walk(rest);
      assert n.parts[..|base.parts|] == base.parts;
      IsSubIffPrefix(n, base);
    }
  }

  /** Whatever passes the guard after `process_path` is confined to the base. */
  lemma GuardedIsConfined(path: string, base: Path)
    requires WellFormed(base)
    requires ProcessPath(path, base).Some?
    requires IsSub(ProcessPath(path, base).value, base)
    ensures Confined(ProcessPath(path, base).value, base)
  {
    IsSubIffPrefix(ProcessPath(path, base).value, base);
  }

  /** `k` successive `..` components. */
  function Ups(k: nat): (r: seq<Part>)
    ensures |r| == k && forall i :: 0 <= i < k ==> r[i] == ParentDir
  {
    seq(k, _ => ParentDir)
  }

  /** Each `..` removes one kept name, and none once they are used up. */
  lemma {:induction false} WalkUps(names: seq<string>, k: nat)
    ensures Walk(Normals(names) + Ups(k)) == names[..if k <= |names| then |names| - k else 0]
    decreases k
  {
    if k == 0 {
      assert Normals(names) + Ups(0) == Normals(names);
      WalkNormals(names);
    } else {
      var ps := Normals(names) + Ups(k);
      assert ps[..|ps| - 1] == Normals(names) + Ups(k - 1);
      WalkUps(names, k - 1);
    }
  }

  /** Normalization alone does not keep a request inside the base: as many
      `..` as the base has names, then a name `x`, resolve to `/x` (for
      instance `../../etc` under `/srv/www` becomes `/etc`), and only the
      ancestor guard rejects it (unless the base is `/x` itself). */
  lemma NormalizationAloneEscapes(base: Path, x: string)
    requires base.root && Normalized(base) && 0 < |base.parts| && ValidName(x)
    requires base.parts != [Normal(x)]
    ensures var q := Path(false, Ups(|base.parts|) + [Normal(x)]);
            Normalize(JoinPath(base, q)) == Path(true, [Normal(x)])
            && !IsSub(Normalize(JoinPath(base, q)), base)
  {
    var q := Path(false, Ups(|base.parts|) + [Normal(x)]);
    var names := Names(base.parts);
    assert Normals(names) == base.parts;
    var ps := JoinPath(base, q).parts;
    assert ps == Normals(names) + Ups(|names|) + [Normal(x)];
    assert ps[..|ps| - 1] == Normals(names) + Ups(|names|);
    WalkUps(names, |names|);
    assert Walk(ps) == [x];
    assert Normals([x]) == [Normal(x)];
    IsSubIffPrefix(Path(true, [Normal(x)]), base);
  }

  // ---------------------------------------------------------------------
  // File names and extensions
  // ---------------------------------------------------------------------

  /** `Path::file_name`: the last component when it is a name. */
  function FileName(p: Path): (r: Option<string>)
    ensures r.Some? ==> 0 < |p.parts| && p.parts[|p.parts| - 1] == Normal(r.value)
  {
    if 0 < |p.parts| && p.parts[|p.parts| - 1].Normal? then Some(p.parts[|p.parts| - 1].name) else None
  }

  /** Position of the last occurrence of `c` in `s`. */
  function LastIndexOf(s: string, c: char): (r: Option<nat>)
    ensures r.Some? ==> r.value < |s| && s[r.value] == c && c !in s[r.value + 1..]
    ensures r.None? ==> c !in s
    decreases |s|
  {
    if |s| == 0 then None
    else if s[|s| - 1] == c then Some(|s| - 1)
    else
      var init := s[..|s| - 1];
      var r := LastIndexOf(init, c);
      assert s == init + [s[|s| - 1]];
      if r.Some? then
        assert s[r.value + 1..] == init[r.value + 1..] + [s[|s| - 1]];
        AbsentFromAppend(init[r.value + 1..], s[|s| - 1], c);
        r
      else
        AbsentFromAppend(init, s[|s| - 1], c);
        r
  }

  /** A character absent from a text and different from the appended one
      is absent from the result. */
  lemma AbsentFromAppend(a: string, x: char, c: char)
    requires c !in a && x != c
    ensures c !in a + [x]
  {
  }

  /** The extension of a file name (`Path::extension`): the text after the
      last `.`, unless there is no `.`, or the only `.` is the first
      character, or the name is `..`. */
  function ExtensionOf(name: string): (r: Option<string>)
    ensures r.Some? ==> '.' !in r.value && EndsWith(name, "." + r.value) && |r.value| + 1 < |name|
  {
    if name == ".." then None
    else
      match LastIndexOf(name, '.')
      case None => None
      case Some(i) =>
        if i == 0 then None
        else
          assert name[|name| - |name[i + 1..]| - 1..] == "." + name[i + 1..];
          Some(name[i + 1..])
  }

  /** The inverse reading: a name built as `stem.ext` with no `.` in `ext`
      and a non-empty stem has extension `ext` (the name `..` excepted). */
  lemma ExtensionOfStemAndExt(stem: string, ext: string)
    requires stem != "" && '.' !in ext
    requires !(stem == "." && ext == "")
    ensures ExtensionOf(stem + "." + ext) == Some(ext)
  {
    var name := stem + "." + ext;
    assert name == (stem + ".") + ext;
    LastIndexAfter(stem + ".", ext, '.');
    assert name != ".." by {
      if |name| == 2 {
        assert stem == [name[0]];
      }
    }
    assert name[|stem|] == '.';
    assert name[|stem| + 1..] == ext;
  }

  lemma LastIndexAfter(s: string, t: string, c: char)
    requires 0 < |s| && s[|s| - 1] == c && c !in t
    ensures LastIndexOf(s + t, c) == Some(|s| - 1)
    decreases |t|
  {
    if |t| > 0 {
      var u := s + t;
      assert u[..|u| - 1] == s + t[..|t| - 1];
      assert t[|t| - 1] in t;
      LastIndexAfter(s, t[..|t| - 1], c);
    } else {
      assert s + t == s;
    }
  }

  /** A name whose only `.` is its first character (a hidden file such as
      `.html`) has no extension. */
  lemma HiddenNameHasNoExtension(name: string)
    requires 0 < |name| && name[0] == '.' && '.' !in name[1..]
    ensures ExtensionOf(name) == None
  {
  }

  /** `Path::extension`: the extension of the file name, if there is one. */
  function Extension(p: Path): (r: Option<string>)
    ensures r.Some? ==> FileName(p).Some? && ExtensionOf(FileName(p).value) == r
  {
    match FileName(p)
    case None => None
    case Some(n) => ExtensionOf(n)
  }
}

=== FILE: request_errors.dfy ===
/** Why a request could not be read (http/request_err.rs). */
module RequestErrors {
  datatype RequestError = NoMethod | NoPath | Utf8Error

  const SUBJECT := "Request "

  /** What is wrong with the request. */
  function Complaint(e: RequestError): string {
    match e
    case NoMethod => "does not have an associated HTTP method"
    case NoPath => "does not have an associated request path"
    case Utf8Error => "contains invalid Utf8 characters"
  }

  /** `Display`: every message is about the request, followed by what is
      wrong with it. */
  function Message(e: RequestError): (r: string)
    ensures |SUBJECT| <= |r| && r[..|SUBJECT|] == SUBJECT
    ensures r[|SUBJECT|..] == Complaint(e)
  {
    var r := SUBJECT + Complaint(e);
    assert r[..|SUBJECT|] == SUBJECT && r[|SUBJECT|..] == Complaint(e);
    r
  }

  /** The messages tell the errors apart. */
  lemma MessageInjective(a: RequestError, b: RequestError)
    requires Message(a) == Message(b)
    ensures a == b
  {
    assert Complaint(a) == Complaint(b);
  }
}

=== FILE: results.dfy ===
/** The two failure-carrying shapes the server code uses everywhere: Rust's
    `Option` and `Result`. */
module Results {

  /** `Option<T>`: a value that may be absent. */
  datatype Option<+T> = None | Some(value: T)

  /** `Result<T, E>`: either a success value or an error value. */
  datatype Result<+T, +E> = Ok(value: T) | Err(error: E)
}

=== FILE: text.dfy ===
/** Text and byte helpers shared by the whole model: octets, ASCII classes,
    decimal rendering and parsing of unsigned integers, splitting and joining
    on separators, and the byte-wise ordering Rust uses for `String`. */
module Text {
  import opened Results

  /** One octet of a byte buffer (`u8`). */
  type byte = b: int | 0 <= b < 256

  /** A byte buffer (`&[u8]`, `Vec<u8>`). */
  type Bytes = seq<byte>

  /** `char::is_ascii_whitespace`: space, horizontal tab, line feed, form
      feed and carriage return (vertical tab is not included). */
  predicate IsAsciiWhitespace(c: char) {
    c == ' ' || c == '\t' || c == '\n' || c as int == 0x0C || c == '\r'
  }

  predicate StartsWith<T(==)>(s: seq<T>, p: seq<T>) {
    |p| <= |s| && s[..|p|] == p
  }

  predicate EndsWith<T(==)>(s: seq<T>, p: seq<T>) {
    |p| <= |s| && s[|s| - |p|..] == p
  }

  lemma StartsWithConcat<T>(a: seq<T>, b: seq<T>, p: seq<T>)
    requires StartsWith(a, p)
    ensures StartsWith(a + b, p)
  {
    assert (a + b)[..|p|] == a[..|p|];
  }

  lemma EndsWithConcat<T>(a: seq<T>, b: seq<T>, p: seq<T>)
    requires EndsWith(b, p)
    ensures EndsWith(a + b, p)
  {
    assert (a + b)[|a + b| - |p|..] == b[|b| - |p|..];
  }

  /** `t` occurs in `s` starting at index `i`. */
  predicate OccursAt<T(==)>(s: seq<T>, t: seq<T>, i: int) {
    0 <= i && i + |t| <= |s| && s[i..i + |t|] == t
  }

  /** `t` occurs somewhere inside `s` (Rust's `str::contains` / `find(..).is_some()`). */
  ghost predicate Contains<T>(s: seq<T>, t: seq<T>) {
    exists i :: OccursAt(s, t, i)
  }

  lemma ContainsMiddle<T>(a: seq<T>, t: seq<T>, b: seq<T>)
    ensures Contains(a + t + b, t)
  {
    var s := a + t + b;
    assert OccursAt(s, t, |a|);
  }

  lemma ContainsWidens<T>(s: seq<T>, t: seq<T>, a: seq<T>, b: seq<T>)
    requires Contains(s, t)
    ensures Contains(a + s + b, t)
  {
    var i :| OccursAt(s, t, i);
    var w := a + s + b;
    assert w[|a| + i..|a| + i + |t|] == s[i..i + |t|];
    assert OccursAt(w, t, |a| + i);
  }

  // ---------------------------------------------------------------------
  // Decimal numbers
  // ---------------------------------------------------------------------

  predicate IsDigit(c: char) {
    '0' <= c <= '9'
  }

  predicate AllDigits(s: string) {
    forall i :: 0 <= i < |s| ==> IsDigit(s[i])
  }

  function DigitChar(d: int): (c: char)
    requires 0 <= d < 10
    ensures IsDigit(c) && c as int - '0' as int == d
  {
    ('0' as int + d) as char
  }

  function DigitValue(c: char): nat
    requires IsDigit(c)
  {
    c as int - '0' as int
  }

  /** The decimal text of an unsigned integer, as `Display` for `usize`
      writes it: digits only, and no leading zero unless the number is 0. */
  function NatToString(n: nat): (r: string)
    ensures 1 <= |r| && AllDigits(r)
    ensures r[0] == '0' ==> n == 0 && |r| == 1
    decreases n
  {
    if n < 10 then [DigitChar(n)] else NatToString(n / 10) + [DigitChar(n % 10)]
  }

  /** The value of a string of decimal digits, most significant first. */
  function DigitsValue(s: string): nat
    requires AllDigits(s)
    decreases |s|
  {
    if |s| == 0 then 0 else 10 * DigitsValue(s[..|s| - 1]) + DigitValue(s[|s| - 1])
  }

  lemma {:induction false} DigitsValueOfNatToString(n: nat)
    ensures DigitsValue(NatToString(n)) == n
    decreases n
  {
    if n >= 10 {
      var s := NatToString(n);
      assert s[..|s| - 1] == NatToString(n / 10);
      DigitsValueOfNatToString(n / 10);
    }
  }

  /** Two numbers are rendered alike only if they are equal. */
  lemma NatToStringInjective(m: nat, n: nat)
    requires NatToString(m) == NatToString(n)
    ensures m == n
  {
    DigitsValueOfNatToString(m);
    DigitsValueOfNatToString(n);
  }

  /** The largest `usize` on the 64-bit targets the server is built for. */
  const USIZE_MAX: nat := 0xFFFF_FFFF_FFFF_FFFF

  /** `str::parse::<usize>`: an optional leading `+`, then at least one ASCII
      digit and nothing else; values above `usize::MAX` are rejected. */
  function ParseUsize(s: string): (r: Option<nat>)
    ensures r.Some? ==> r.value <= USIZE_MAX && 1 <= |s|
    ensures r.Some? && s[0] != '+' ==> AllDigits(s)
    ensures r.Some? ==> var d := if s[0] == '+' then s[1..] else s;
                        AllDigits(d) && r.value == DigitsValue(d)
    ensures 0 < |s| && AllDigits(s) && DigitsValue(s) <= USIZE_MAX ==> r == Some(DigitsValue(s))
  {
    var digits := if 0 < |s| && s[0] == '+' then s[1..] else s;
    if |digits| == 0 || !AllDigits(digits) then None
    else
      var v := DigitsValue(digits);
      if v <= USIZE_MAX then Some(v) else None
  }

  /** Parsing the rendering of any `usize` gives the number back. */
  lemma ParseUsizeOfNatToString(n: nat)
    requires n <= USIZE_MAX
    ensures ParseUsize(NatToString(n)) == Some(n)
  {
    DigitsValueOfNatToString(n);
  }

  /** A leading `+` is accepted: `+8080` reads as 8080. */
  lemma PlusSignAccepted(n: nat)
    requires n <= USIZE_MAX
    ensures ParseUsize("+" + NatToString(n)) == Some(n)
  {
    assert ("+" + NatToString(n))[1..] == NatToString(n);
    DigitsValueOfNatToString(n);
  }

  /** `k` zero digits. */
  function Zeros(k: nat): (r: string)
    ensures |r| == k && AllDigits(r)
  {
    seq(k, _ => '0')
  }

  /** Leading zeros do not change the value of a digit string. */
  lemma {:induction false} DigitsValueLeadingZeros(k: nat, t: string)
    requires AllDigits(t)
    ensures AllDigits(Zeros(k) + t) && DigitsValue(Zeros(k) + t) == DigitsValue(t)
    decreases |t|, k
  {
    var z := Zeros(k);
    assert AllDigits(z + t) by {
      forall i | 0 <= i < |z + t| ensures IsDigit((z + t)[i]) {
        if i < |z| { assert (z + t)[i] == z[i]; } else { assert (z + t)[i] == t[i - |z|]; }
      }
    }
    if |t| == 0 {
      assert z + t == z;
      if k > 0 {
        assert z[..k - 1] == Zeros(k - 1) + [];
        DigitsValueLeadingZeros(k - 1, []);
      }
    } else {
      var init := t[..|t| - 1];
      assert (z + t)[..|z + t| - 1] == z + init;
      DigitsValueLeadingZeros(k, init);
    }
  }

  /** Leading zeros are accepted: `08080` reads as 8080. */
  lemma LeadingZerosAccepted(k: nat, n: nat)
    requires n <= USIZE_MAX
    ensures ParseUsize(Zeros(k) + NatToString(n)) == Some(n)
  {
    DigitsValueOfNatToString(n);
    DigitsValueLeadingZeros(k, NatToString(n));
  }

  // ---------------------------------------------------------------------
  // Splitting and joining
  // ---------------------------------------------------------------------

  /** `str::split(sep)`: the pieces between occurrences of `sep`, empty
      pieces included; there is always at least one piece. */
  function Split(s: string, sep: char): (r: seq<string>)
    ensures 1 <= |r|
    ensures forall i :: 0 <= i < |r| ==> sep !in r[i]
    ensures sep in s <==> 2 <= |r|
    decreases |s|
  {
    if |s| == 0 then [""]
    else
      var tail := Split(s[1..], sep);
      if s[0] == sep then [""] + tail else [[s[0]] + tail[0]] + tail[1..]
  }

  /** `[..].join(sep)`: the pieces with `sep` between neighbours. */
  function Join(xs: seq<string>, sep: string): string
    decreases |xs|
  {
    if |xs| == 0 then ""
    else if |xs| == 1 then xs[0]
    else xs[0] + sep + Join(xs[1..], sep)
  }

  lemma {:induction false} SplitWithoutSep(s: string, sep: char)
    requires sep !in s
    ensures Split(s, sep) == [s]
    decreases |s|
  {
    if |s| > 0 {
      SplitWithoutSep(s[1..], sep);
      assert [s[0]] + s[1..] == s;
    }
  }

  /** A separator-free prefix glues onto the first piece of what follows. */
  lemma {:induction false} SplitGlue(w: string, t: string, sep: char)
    requires sep !in w
    ensures Split(w + t, sep) == [w + Split(t, sep)[0]] + Split(t, sep)[1..]
    decreases |w|
  {
    if |w| > 0 {
      assert (w + t)[1..] == w[1..] + t;
      SplitGlue(w[1..], t, sep);
      assert [w[0]] + (w[1..] + Split(t, sep)[0]) == w + Split(t, sep)[0];
    } else {
      var r := Split(t, sep);
      assert w + t == t;
      assert w + r[0] == r[0];
      assert [r[0]] + r[1..] == r;
    }
  }

  /** Splitting on `sep` undoes joining with `sep`, provided no piece contains it. */
  lemma {:induction false} SplitJoin(xs: seq<string>, sep: char)
    requires 1 <= |xs|
    requires forall i :: 0 <= i < |xs| ==> sep !in xs[i]
    ensures Split(Join(xs, [sep]), sep) == xs
    decreases |xs|
  {
    if |xs| == 1 {
      SplitWithoutSep(xs[0], sep);
    } else {
      var rest := Join(xs[1..], [sep]);
      SplitJoin(xs[1..], sep);
      assert Split([sep] + rest, sep) == [""] + Split(rest, sep) by {
        assert ([sep] + rest)[1..] == rest;
      }
      SplitGlue(xs[0], [sep] + rest, sep);
      assert xs[0] + [sep] + rest == xs[0] + ([sep] + rest);
      assert xs[0] + "" == xs[0];
      assert [xs[0]] + xs[1..] == xs;
    }
  }

  /** Joining the pieces with `sep` gives back the original text. */
  lemma {:induction false} JoinSplit(s: string, sep: char)
    ensures Join(Split(s, sep), [sep]) == s
    decreases |s|
  {
    if |s| > 0 {
      var tail := Split(s[1..], sep);
      JoinSplit(s[1..], sep);
      if s[0] == sep {
        assert Split(s, sep) == [""] + tail;
        assert ([""] + tail)[1..] == tail;
        assert [s[0]] + s[1..] == s;
      } else {
        var r := Split(s, sep);
        assert r == [[s[0]] + tail[0]] + tail[1..];
        if |tail| == 1 {
          assert [s[0]] + s[1..] == s;
        } else {
          assert r[1..] == tail[1..];
          assert Join(tail, [sep]) == tail[0] + [sep] + Join(tail[1..], [sep]);
          assert [s[0]] + s[1..] == s;
        }
      }
    }
  }

  /** Every piece of a join appears inside it. */
  lemma {:induction false} JoinContainsPiece(xs: seq<string>, sep: string, i: int)
    requires 0 <= i < |xs|
    ensures Contains(Join(xs, sep), xs[i])
    decreases |xs|
  {
    if |xs| == 1 {
      ContainsMiddle([], xs[0], []);
      assert [] + xs[0] + [] == xs[0];
    } else if i == 0 {
      ContainsMiddle([], xs[0], sep + Join(xs[1..], sep));
      assert [] + xs[0] + (sep + Join(xs[1..], sep)) == Join(xs, sep);
    } else {
      JoinContainsPiece(xs[1..], sep, i - 1);
      ContainsWidens(Join(xs[1..], sep), xs[i], xs[0] + sep, []);
      assert xs[0] + sep + Join(xs[1..], sep) + [] == Join(xs, sep);
    }
  }

  // ---------------------------------------------------------------------
  // Ordering and sorting of strings
  // ---------------------------------------------------------------------

  /** `a <= b` for Rust strings. Rust compares the UTF-8 bytes; UTF-8
      preserves the order of code points, so comparing characters by code
      point gives the same answer. */
  predicate LexLe(a: string, b: string)
    decreases |a|
  {
    |a| == 0 || (0 < |b| && (a[0] < b[0] || (a[0] == b[0] && LexLe(a[1..], b[1..]))))
  }

  lemma {:induction false} LexLeReflexive(a: string)
    ensures LexLe(a, a)
    decreases |a|
  {
    if 0 < |a| {
      LexLeReflexive(a[1..]);
    }
  }

  lemma {:induction false} LexLeTotal(a: string, b: string)
    ensures LexLe(a, b) || LexLe(b, a)
    decreases |a|
  {
    if 0 < |a| && 0 < |b| && a[0] == b[0] {
      LexLeTotal(a[1..], b[1..]);
    }
  }

  lemma {:induction false} LexLeAntisymmetric(a: string, b: string)
    requires LexLe(a, b) && LexLe(b, a)
    ensures a == b
    decreases |a|
  {
    if 0 < |a| {
      LexLeAntisymmetric(a[1..], b[1..]);
      assert a == [a[0]] + a[1..] && b == [b[0]] + b[1..];
    }
  }

  lemma {:induction false} LexLeTransitive(a: string, b: string, c: string)
    requires LexLe(a, b) && LexLe(b, c)
    ensures LexLe(a, c)
    decreases |a|
  {
    if 0 < |a| && a[0] == b[0] && b[0] == c[0] {
      LexLeTransitive(a[1..], b[1..], c[1..]);
    }
  }

  predicate Sorted(xs: seq<string>) {
    forall i, j :: 0 <= i < j < |xs| ==> LexLe(xs[i], xs[j])
  }

  /** Inserts `x` before the first element it does not exceed. */
  function Insert(x: string, xs: seq<string>): (r: seq<string>)
    requires Sorted(xs)
    ensures Sorted(r) && multiset(r) == multiset(xs) + multiset{x}
    decreases |xs|
  {
    if |xs| == 0 then [x]
    else if LexLe(x, xs[0]) then
      SortedConsLeast(x, xs);
      [x] + xs
    else
      var t := Insert(x, xs[1..]);
      InsertAfterHead(x, xs, t);
      [xs[0]] + t
  }

  /** A string below the head of a sorted sequence can go in front of it. */
  lemma SortedConsLeast(x: string, xs: seq<string>)
    requires Sorted(xs) && 0 < |xs| && LexLe(x, xs[0])
    ensures Sorted([x] + xs)
  {
    forall j | 0 < j < |xs| ensures LexLe(x, xs[j]) {
      LexLeTransitive(x, xs[0], xs[j]);
    }
  }

  /** The head of a sorted sequence stays in front when a larger string is
      inserted into its tail. */
  lemma InsertAfterHead(x: string, xs: seq<string>, t: seq<string>)
    requires Sorted(xs) && 0 < |xs| && !LexLe(x, xs[0])
    requires Sorted(t) && multiset(t) == multiset(xs[1..]) + multiset{x}
    ensures Sorted([xs[0]] + t) && multiset([xs[0]] + t) == multiset(xs) + multiset{x}
  {
    LexLeTotal(x, xs[0]);
    assert xs == [xs[0]] + xs[1..];
    forall j | 0 <= j < |t| ensures LexLe(xs[0], t[j]) {
      var y := t[j];
      assert y in multiset(t);
      if y != x {
        assert y in multiset(xs[1..]);
        var k :| 0 <= k < |xs[1..]| && xs[1..][k] == y;
        assert xs[k + 1] == y;
      }
    }
  }

  /** Insertion sort; `sort_unstable` gives the same output because equal
      strings cannot be told apart. */
  function Sort(xs: seq<string>): (r: seq<string>)
    ensures Sorted(r) && multiset(r) == multiset(xs)
    decreases |xs|
  {
    if |xs| == 0 then []
    else
      assert xs == [xs[0]] + xs[1..];
      Insert(xs[0], Sort(xs[1..]))
  }

  /** The head of a sorted sequence is below every element of it. */
  lemma SortedHeadLeast(a: seq<string>, x: string)
    requires Sorted(a) && x in multiset(a)
    ensures 0 < |a| && LexLe(a[0], x)
  {
    var i :| 0 <= i < |a| && a[i] == x;
    if i == 0 {
      LexLeReflexive(x);
    }
  }

  /** A sorted arrangement of a multiset of strings is unique. */
  lemma {:induction false} SortedUnique(a: seq<string>, b: seq<string>)
    requires Sorted(a) && Sorted(b) && multiset(a) == multiset(b)
    ensures a == b
    decreases |a|
  {
    if 0 < |a| {
      SortedHeadsAgree(a, b);
      TailsAgree(a, b);
      SortedUnique(a[1..], b[1..]);
      SameHeadSameTail(a, b);
    }
  }

  lemma SortedHeadsAgree(a: seq<string>, b: seq<string>)
    requires Sorted(a) && Sorted(b) && multiset(a) == multiset(b) && 0 < |a|
    ensures 0 < |b| && a[0] == b[0]
  {
    assert a[0] in multiset(a);
    SortedHeadLeast(b, a[0]);
    assert b[0] in multiset(b);
    SortedHeadLeast(a, b[0]);
    LexLeAntisymmetric(a[0], b[0]);
  }

  /** Removing the same head from two permutations of each other leaves
      permutations of each other. */
  lemma TailsAgree<T>(a: seq<T>, b: seq<T>)
    requires multiset(a) == multiset(b) && 0 < |a| && 0 < |b| && a[0] == b[0]
    ensures multiset(a[1..]) == multiset(b[1..])
  {
    assert a == [a[0]] + a[1..] && b == [b[0]] + b[1..];
    calc {
      multiset(a[1..]);
      multiset(a) - multiset{a[0]};
      multiset(b) - multiset{b[0]};
      multiset(b[1..]);
    }
  }

  lemma SameHeadSameTail<T>(a: seq<T>, b: seq<T>)
    requires 0 < |a| && 0 < |b| && a[0] == b[0] && a[1..] == b[1..]
    ensures a == b
  {
    assert a == [a[0]] + a[1..] && b == [b[0]] + b[1..];
  }

  /** Sorting sees only which strings occur how often, not their order. */
  lemma SortDependsOnlyOnMultiset(xs: seq<string>, ys: seq<string>)
    requires multiset(xs) == multiset(ys)
    ensures Sort(xs) == Sort(ys)
  {
    SortedUnique(Sort(xs), Sort(ys));
  }
}

=== FILE: utf8.dfy ===
/** UTF-8, the encoding Rust's `str` guarantees: `str::as_bytes` /
    `String::into_bytes` (Encode) and `str::from_utf8` (Decode). The accepted
    byte patterns are those of section 4 of RFC 3629: no overlong forms, no
    surrogates, nothing above U+10FFFF. */
module Utf8 {
  import opened Results
  import opened Text

  predicate IsContinuation(b: byte) {
    0x80 <= b <= 0xBF
  }

  /** The bytes of one character, shortest form. */
  function EncodeChar(c: char): (r: Bytes)
    ensures 1 <= |r| <= 4
  {
    var n := c as int;
    if n < 0x80 then [n]
    else if n < 0x800 then [0xC0 + n / 64, 0x80 + n % 64]
    else if n < 0x1_0000 then [0xE0 + n / 4096, 0x80 + (n / 64) % 64, 0x80 + n % 64]
    else [0xF0 + n / 262144, 0x80 + (n / 4096) % 64, 0x80 + (n / 64) % 64, 0x80 + n % 64]
  }

  /** `str::as_bytes`. */
  function Encode(s: string): (r: Bytes)
    ensures |s| <= |r|
    decreases |s|
  {
    if |s| == 0 then [] else EncodeChar(s[0]) + Encode(s[1..])
  }

  /** The first character of `b` and how many bytes it takes, if `b` starts
      with a well-formed sequence. */
  function DecodeFirst(b: Bytes): (r: Option<(char, nat)>)
    ensures r.Some? ==> 1 <= r.value.1 <= |b|
  {
    if |b| == 0 then None
    else
      var b0 := b[0] as int;
      if b0 < 0x80 then Some((b0 as char, 1))
      else if 0xC2 <= b0 <= 0xDF then
        if 2 <= |b| && IsContinuation(b[1]) then
          Some((((b0 - 0xC0) * 64 + (b[1] as int - 0x80)) as char, 2))
        else None
      else if 0xE0 <= b0 <= 0xEF then
        var lo := if b0 == 0xE0 then 0xA0 else 0x80;
        var hi := if b0 == 0xED then 0x9F else 0xBF;
        if 3 <= |b| && lo <= b[1] <= hi && IsContinuation(b[2]) then
          Some((((b0 - 0xE0) * 4096 + (b[1] as int - 0x80) * 64 + (b[2] as int - 0x80)) as char, 3))
        else None
      else if 0xF0 <= b0 <= 0xF4 then
        var lo := if b0 == 0xF0 then 0x90 else 0x80;
        var hi := if b0 == 0xF4 then 0x8F else 0xBF;
        if 4 <= |b| && lo <= b[1] <= hi && IsContinuation(b[2]) && IsContinuation(b[3]) then
          Some((((b0 - 0xF0) * 262144 + (b[1] as int - 0x80) * 4096
                 + (b[2] as int - 0x80) * 64 + (b[3] as int - 0x80)) as char, 4))
        else None
      else None
  }

  /** `str::from_utf8`: the text, or None (Rust's `Utf8Error`) when the
      buffer is not well-formed UTF-8. */
  function Decode(b: Bytes): (r: Option<string>)
    ensures r.Some? ==> |r.value| <= |b|
    decreases |b|
  {
    if |b| == 0 then Some("")
    else
      match DecodeFirst(b)
      case None => None
      case Some((c, n)) =>
        match Decode(b[n..])
        case None => None
        case Some(s) => Some([c] + s)
  }

  // ---------------------------------------------------------------------
  // Arithmetic on base-64 digit groups
  // ---------------------------------------------------------------------

  lemma Div64(n: int, q: int, r: int)
    requires n == q * 64 + r && 0 <= r < 64
    ensures n / 64 == q && n % 64 == r
  {
  }

  lemma Div4096(n: int, q: int, r: int)
    requires n == q * 4096 + r && 0 <= r < 4096
    ensures n / 4096 == q && n % 4096 == r
  {
  }

  lemma Div262144(n: int, q: int, r: int)
    requires n == q * 262144 + r && 0 <= r < 262144
    ensures n / 262144 == q && n % 262144 == r
  {
  }

  lemma Groups(n: nat)
    ensures n / 4096 == (n / 64) / 64
    ensures n / 262144 == (n / 4096) / 64
    ensures n == (n / 64) * 64 + n % 64
    ensures n / 64 == (n / 4096) * 64 + (n / 64) % 64
    ensures n / 4096 == (n / 262144) * 64 + (n / 4096) % 64
  {
    var q := n / 64;
    var q2 := q / 64;
    assert n == q2 * 4096 + ((q % 64) * 64 + n % 64);
    Div4096(n, q2, (q % 64) * 64 + n % 64);
    var p := n / 4096;
    var p2 := p / 64;
    assert n == p2 * 262144 + ((p % 64) * 4096 + n % 4096);
    Div262144(n, p2, (p % 64) * 4096 + n % 4096);
  }

  // ---------------------------------------------------------------------
  // Round trips
  // ---------------------------------------------------------------------

  /** Decoding reads back exactly the character that was encoded, whatever follows it. */
  lemma DecodeFirstOfEncodeChar(c: char, rest: Bytes)
    ensures DecodeFirst(EncodeChar(c) + rest) == Some((c, |EncodeChar(c)|))
  {
    var n := c as int;
    if n < 0x80 {
      assert (EncodeChar(c) + rest)[0] == n as byte;
    } else if n < 0x800 {
      DecodeTwo(c, rest);
    } else if n < 0x1_0000 {
      DecodeThree(c, rest);
    } else {
      DecodeFour(c, rest);
    }
  }

  lemma DecodeTwo(c: char, rest: Bytes)
    requires 0x80 <= c as int < 0x800
    ensures DecodeFirst(EncodeChar(c) + rest) == Some((c, 2))
  {
    var n := c as int;
    var b := EncodeChar(c) + rest;
    Groups(n);
    assert b[0] == 0xC0 + n / 64 && b[1] == 0x80 + n % 64;
    assert (b[0] as int - 0xC0) * 64 + (b[1] as int - 0x80) == n;
  }

  lemma DecodeThree(c: char, rest: Bytes)
    requires 0x800 <= c as int < 0x1_0000
    ensures DecodeFirst(EncodeChar(c) + rest) == Some((c, 3))
  {
    var n := c as int;
    var b := EncodeChar(c) + rest;
    Groups(n);
    assert b[0] == 0xE0 + n / 4096 && b[1] == 0x80 + (n / 64) % 64 && b[2] == 0x80 + n % 64;
    assert (b[0] as int - 0xE0) * 4096 + (b[1] as int - 0x80) * 64 + (b[2] as int - 0x80) == n;
  }

  lemma DecodeFour(c: char, rest: Bytes)
    requires 0x1_0000 <= c as int
    ensures DecodeFirst(EncodeChar(c) + rest) == Some((c, 4))
  {
    var n := c as int;
    var b := EncodeChar(c) + rest;
    Groups(n);
    assert b[0] == 0xF0 + n / 262144 && b[1] == 0x80 + (n / 4096) % 64;
    assert b[2] == 0x80 + (n / 64) % 64 && b[3] == 0x80 + n % 64;
    assert (b[0] as int - 0xF0) * 262144 + (b[1] as int - 0x80) * 4096
      + (b[2] as int - 0x80) * 64 + (b[3] as int - 0x80) == n;
  }

  /** Every well-formed sequence is the shortest-form encoding of what it decodes to. */
  lemma EncodeCharOfDecodeFirst(b: Bytes)
    requires DecodeFirst(b).Some?
    ensures EncodeChar(DecodeFirst(b).value.0) == b[..DecodeFirst(b).value.1]
  {
    var k := DecodeFirst(b).value.1;
    if k == 2 {
      EncodeTwo(b);
    } else if k == 3 {
      EncodeThree(b);
    } else if k == 4 {
      EncodeFour(b);
    }
  }

  lemma EncodeTwo(b: Bytes)
    requires DecodeFirst(b).Some? && DecodeFirst(b).value.1 == 2
    ensures EncodeChar(DecodeFirst(b).value.0) == b[..2]
  {
    var n := DecodeFirst(b).value.0 as int;
    var x, y := b[0] as int - 0xC0, b[1] as int - 0x80;
    assert n == x * 64 + y;
    Div64(n, x, y);
  }

  lemma EncodeThree(b: Bytes)
    requires DecodeFirst(b).Some? && DecodeFirst(b).value.1 == 3
    ensures EncodeChar(DecodeFirst(b).value.0) == b[..3]
  {
    var n := DecodeFirst(b).value.0 as int;
    var x, y, z := b[0] as int - 0xE0, b[1] as int - 0x80, b[2] as int - 0x80;
    assert n == x * 4096 + y * 64 + z;
    Div64(n, x * 64 + y, z);
    Div64(n / 64, x, y);
    Groups(n);
  }

  lemma EncodeFour(b: Bytes)
    requires DecodeFirst(b).Some? && DecodeFirst(b).value.1 == 4
    ensures EncodeChar(DecodeFirst(b).value.0) == b[..4]
  {
    var n := DecodeFirst(b).value.0 as int;
    var w, x, y, z := b[0] as int - 0xF0, b[1] as int - 0x80, b[2] as int - 0x80, b[3] as int - 0x80;
    assert n == w * 262144 + x * 4096 + y * 64 + z;
    Div64(n, w * 4096 + x * 64 + y, z);
    Div64(n / 64, w * 64 + x, y);
    Groups(n);
    Div64(n / 4096, w, x);
  }

  lemma {:induction false} DecodeEncode(s: string)
    ensures Decode(Encode(s)) == Some(s)
    decreases |s|
  {
    if |s| > 0 {
      var e := EncodeChar(s[0]);
      DecodeFirstOfEncodeChar(s[0], Encode(s[1..]));
      assert (e + Encode(s[1..]))[|e|..] == Encode(s[1..]);
      DecodeEncode(s[1..]);
      assert [s[0]] + s[1..] == s;
    }
  }

  lemma {:induction false} EncodeDecode(b: Bytes)
    requires Decode(b).Some?
    ensures Encode(Decode(b).value) == b
    decreases |b|
  {
    if |b| > 0 {
      DecodeStep(b);
      var c, k := DecodeFirst(b).value.0, DecodeFirst(b).value.1;
      var t := Decode(b[k..]).value;
      calc {
        Encode(Decode(b).value);
        Encode([c] + t);
        { EncodeCons(c, t); }
        EncodeChar(c) + Encode(t);
        { EncodeCharOfDecodeFirst(b); }
        b[..k] + Encode(t);
        { EncodeDecode(b[k..]); }
        b[..k] + b[k..];
        b;
      }
    }
  }

  /** A decoded buffer is its first character followed by the decoded rest. */
  lemma DecodeStep(b: Bytes)
    requires 0 < |b| && Decode(b).Some?
    ensures DecodeFirst(b).Some?
    ensures var (c, k) := DecodeFirst(b).value;
            Decode(b[k..]).Some? && Decode(b).value == [c] + Decode(b[k..]).value
  {
  }

  lemma EncodeCons(c: char, t: string)
    ensures Encode([c] + t) == EncodeChar(c) + Encode(t)
  {
    assert ([c] + t)[1..] == t;
  }

  lemma {:induction false} EncodeConcat(s: string, t: string)
    ensures Encode(s + t) == Encode(s) + Encode(t)
    decreases |s|
  {
    if |s| > 0 {
      assert (s + t)[0] == s[0] && (s + t)[1..] == s[1..] + t;
      EncodeConcat(s[1..], t);
    } else {
      assert s + t == t;
    }
  }

  /** The text of a buffer of ASCII bytes, one character per byte. */
  function AsciiText(b: Bytes): (s: string)
    requires forall i :: 0 <= i < |b| ==> b[i] < 0x80
    ensures |s| == |b|
  {
    seq(|b|, i requires 0 <= i < |b| => b[i] as char)
  }

  /** ASCII text is encoded byte for byte. */
  lemma {:induction false} EncodeAsciiText(b: Bytes)
    requires forall i :: 0 <= i < |b| ==> b[i] < 0x80
    ensures Encode(AsciiText(b)) == b
    decreases |b|
  {
    if |b| > 0 {
      var s := AsciiText(b);
      assert s[1..] == AsciiText(b[1..]);
      EncodeCharAscii(s[0]);
      EncodeAsciiText(b[1..]);
      assert b == [b[0]] + b[1..];
    }
  }

  /** A character outside ASCII is encoded without any ASCII byte, and an
      ASCII character as its own code. */
  lemma EncodeCharAscii(c: char)
    ensures (c as int) < 0x80 ==> EncodeChar(c) == [c as int]
    ensures 0x80 <= (c as int) ==> forall i :: 0 <= i < |EncodeChar(c)| ==> 0x80 <= EncodeChar(c)[i]
  {
  }

  /** An ASCII character occurs in the text exactly when its byte occurs in the encoding. */
  lemma {:induction false} EncodeMentionsAscii(s: string, c: char)
    requires (c as int) < 0x80
    ensures (c as int) in Encode(s) <==> c in s
    decreases |s|
  {
    if |s| > 0 {
      EncodeCharAscii(s[0]);
      EncodeMentionsAscii(s[1..], c);
      assert s == [s[0]] + s[1..];
    }
  }
}
